=== FILE: README.md ===
# ServiceLocator resolution engine in Dafny

This project models the resolution engine of `ServiceLocator.hpp`, a header-only C++
dependency-injection container, and proves properties of it. The model covers:

- the container tree built by `create` and `enter`;
- the per-type binding tables that `bind<T>(name)` fills, each kept in name order like the
  `std::map` it stands for;
- the three binding lifecycles: instance, transient and singleton;
- the `to`/`toSelf` and `alias` factories;
- the chain of `Context` frames an in-flight resolve builds;
- the recursive-resolve check and the resolve-path text that its exception carries;
- the write-once concrete-type tag of a frame;
- the fall-back from a child container to its parent;
- `resolveAll`, providers and try-providers, eager bindings forced by `getContext`;
- the after-resolve callback queue of a root context.

## Module layout

| file | module | what it holds |
|---|---|---|
| `base.dfy` | `Base` | `Option`, `Result`, `Outcome`, and the exception classes as `Error` |
| `bindings.dfy` | `Bindings` | identities, pointers, factories (`Construct`, `Alias`) and lifecycles |
| `frames.dfy` | `Frames` | a `Context` frame, its concrete-type tag, and `getResolvePath` |
| `lexical.dfy` | `Lexical` | the `std::string` ordering of map keys |
| `sorted_table.dfy` | `SortedTable` | the per-type `std::map<std::string, binding>` as a sorted sequence |
| `scopes.dfy` | `Scopes` | the container tree: `create`, `enter`, `bind`, lookup, `canResolve`, `_visitAll` |
| `resolution.dfy` | `Resolution` | `Context::resolve`/`tryResolve`/`resolveAll`, `_resolve`/`_tryResolve`, accessors, factories, providers, the after-resolve drain |
| `service_locator.dfy` | `ServiceLocator` | the top-level operations on a container's own root context, and `getContext` |
| `properties.dfy` | `Properties` | lookup, `canResolve` and `bind` properties |
| `lifecycle.dfy` | `Lifecycle` | instance, singleton and transient behaviour through top-level requests |
| `forwarding.dfy` | `Forwarding` | aliases, cycles, the write-once tag and providers |
| `scenarios.dfy` | `Scenarios` | nested containers, eager bindings and `resolveAll` |
| `callbacks.dfy` | `Callbacks` | the after-resolve queue |

## How the program is represented

**Containers.** A container tree is a sequence of containers numbered in creation order, so a
parent always has a smaller number than its children. A binding is identified by its container
and its (type, name) identity. C++ types are represented by their demangled names.

**Resolution state.** The tree does not change while a resolve runs. What does change is
threaded through explicitly as a `Heap`:

- the singleton caches;
- the counter that numbers newly made objects, which is how "a new object" is observed;
- the after-resolve queue of each container's own root context.

Objects are numbers. An object made by a constructor takes the counter's value, and the counter
moves on. An object handed to `toInstance` already exists, so `Resolution.Numbered` records that
every object the program holds, bound or cached, is numbered below the counter. `create`,
`enter`, `bind` of an existing object, and every resolution keep this true.

**Factories.** A factory is a fixed list of requests (`Step`s) it makes of the context it is
handed: `resolve`, `tryResolve`, `resolveAll`, `afterResolve(fn)`, or a provider call. A
constructing factory may also hand back null.

**Termination.** Cycle-free nesting terminates: every nested frame adds an identity that the
chain below the root does not yet hold. Provider calls and deferred callbacks start from a
fresh root and can recurse forever in C++. The model gives them a `fuel` budget, and when the
budget runs out it raises `Exhausted`.

**`canResolve`.** `_canResolve` walks up the parent chain only while a
container has no table at all for the type. It then answers from that first table alone
(ServiceLocator.hpp:627-639). It does not keep looking in the parents the way `_resolve`
does. `Properties.CanResolveStopsAtTable` shows a tree where `canResolve` answers no and
`resolve` finds the binding in the parent.

## Model

| member | source | states |
|---|---|---|
| Frames.SetConcreteType | ServiceLocator.hpp:176-181 | the tag is written exactly when it was unset; a second write throws BindingIssue and keeps the frame's identity |
| Frames.PathIsJoin | ServiceLocator.hpp:296-310 | the resolve path is the segments of all frames below the root joined by " -> ", in chain order, each with its `.to<C>` suffix once tagged |
| SortedTable.Get | ServiceLocator.hpp:533-545 | `find(name)` succeeds exactly for the names the table holds, and returns the entry stored under that name |
| SortedTable.Insert | ServiceLocator.hpp:517-528 | inserting a new name keeps the table in strict name order, adds exactly that one entry and keeps every old one |
| SortedTable.GetAfterInsert | ServiceLocator.hpp:527-545 | after an insert, `find` of the new name gives the new binding, and `find` of any other name answers as before |
| Scopes.Create | ServiceLocator.hpp:661-673 | a new container has no parent, no tables and no pending eager bindings, and leaves the existing containers unchanged |
| Scopes.Enter | ServiceLocator.hpp:680-685 | a new, empty container whose parent is the given one; the existing containers are unchanged |
| Scopes.Bind | ServiceLocator.hpp:520-531 | throws DuplicateBinding exactly when this container's own table already holds the name; otherwise the identity is bound here, every other identity and every other container are unchanged, and `eagerly`, which only a singleton can carry, appends the identity to the pending list |
| Scopes.Ancestors | ServiceLocator.hpp:592-612 | the parent chain starts at the container itself, and each later container on it is strictly older than the one before |
| Scopes.Find | ServiceLocator.hpp:592-612 | the container found binds the identity and is on the container's parent chain |
| Scopes.FindIsNearest | ServiceLocator.hpp:592-612 | lookup finds nothing exactly when no container on the parent chain binds the identity; otherwise it finds the first container on the chain that does |
| Scopes.VisitAll | ServiceLocator.hpp:615-625 | `_visitAll` meets exactly the bindings of the type in the container and its ancestors: nearest container first, by name within a container, shadowed bindings included |
| Scopes.Own | ServiceLocator.hpp:547-552 | one container's visits are its table for the type, entry by entry in table order |
| Resolution.ResolveFrom | ServiceLocator.hpp:126-264 | an identity already on the chain throws RecursiveResolve with the new frame's path and changes nothing; `resolve` never returns null; a success requested from the root leaves the root's queue drained; caches are only ever added to |
| Resolution.ResolveIn | ServiceLocator.hpp:592-658 | a lookup keeps every cached singleton, keeps the caches coherent with the tree, never returns null in `resolve` mode and, called below a root frame, only appends to the root queue |
| Resolution.Fallback | ServiceLocator.hpp:597-656 | falling back to the parent, or throwing or yielding null at the top, keeps every cached singleton and the caches' coherence, and `resolve` never yields null |
| Resolution.Accessor | ServiceLocator.hpp:369-412 | an instance is returned as bound; a cached singleton is returned without running anything; a successful singleton run leaves its result cached; a non-null factory never yields null |
| Resolution.RunFactory | ServiceLocator.hpp:414-490 | a constructing factory on a tagged frame throws BindingIssue before running; an object it makes is numbered at or above the counter it started from, and an object any factory answers with was made before the counter it ends at |
| Resolution.RunSteps | ServiceLocator.hpp:204-264 | a factory's requests only ever add to the caches, keep them coherent with the tree and keep every held object below the counter; made from below the root frame, they only append to the root queue |
| Resolution.Perform | ServiceLocator.hpp:312-317 | `afterResolve(fn)` appends `fn` to the root frame's queue and does nothing else; made from below the root frame, every other request only appends to that queue |
| Resolution.ResolveAllFrom | ServiceLocator.hpp:222-230 | one result per visited binding; when there is a binding and the unnamed identity of the type is already on the chain, it throws RecursiveResolve and changes nothing |
| Resolution.ResolveEach | ServiceLocator.hpp:222-229 | each visit gets its own cycle-checked frame named ""; results are appended one per visit |
| Resolution.ProviderCall | ServiceLocator.hpp:266-294 | a provider call leaves the caller's queue as it was, and a provider never returns null |
| Resolution.Drain | ServiceLocator.hpp:135-146 | the queue is emptied when every callback ran, and kept whole when one throws |
| Resolution.RunCallback | ServiceLocator.hpp:138-141 | a callback keeps every cached singleton and leaves the draining context's queue alone |
| ServiceLocator.Resolve | ServiceLocator.hpp:204-264 | a top-level request leaves other containers' root queues unchanged and keeps every cache; `resolve` never returns null; success drains the root queue, while a failure keeps it for the next request; resolving the root's own identity throws RecursiveResolve |
| ServiceLocator.ResolveAll | ServiceLocator.hpp:222-230 | one result per binding `_visitAll` meets; success drains the root queue, while a failure keeps it |
| ServiceLocator.Provide | ServiceLocator.hpp:266-294 | a provider call never touches the container's root queue and never returns null |
| ServiceLocator.RegisterAfterResolve | ServiceLocator.hpp:312-317 | the callback is appended to the queue of an existing container's root context, and nothing else changes |
| ServiceLocator.GetContext | ServiceLocator.hpp:703-711 | with nothing pending, nothing happens; on success every pending eager singleton is cached and the pending list is cleared; on an exception the list is kept; the root queue is never drained, so callbacks the eager runs queue stay queued |
| ServiceLocator.Eager | ServiceLocator.hpp:511-514 | forcing the pending bindings in order leaves each forced singleton cached |
| Properties.ResolveInUnbound | ServiceLocator.hpp:592-658 | with the identity bound nowhere on the chain, lookup throws UnableToResolve or yields null and changes nothing |
| Properties.ResolveInNearest | ServiceLocator.hpp:592-612 | lookup skips every container below the nearest one that binds the identity |
| Properties.ResolveInInstance | ServiceLocator.hpp:399-412 | when the nearest binding is an instance, lookup returns it and changes nothing |
| Properties.ResolveInSettled | ServiceLocator.hpp:369-412 | when the nearest binding is a non-null instance or an already cached singleton, lookup returns that object and changes nothing |
| Properties.ProviderQuiet | ServiceLocator.hpp:266-294 | a provider whose lookup changes nothing answers with it and leaves the caller's state as it was |
| Properties.UnboundResolve | tests/ServiceLocatorTests.cpp:217-233 | with nothing queued on the root context, an identity bound nowhere makes `resolve` throw UnableToResolve with the path `resolve<T>(name)` and build nothing, while `tryResolve` yields null |
| Properties.CanResolveSound | ServiceLocator.hpp:627-639 | when `canResolve` answers yes, lookup finds a binding |
| Properties.CanResolveStopsAtTable | ServiceLocator.hpp:627-639 | a table for the type without the name makes `canResolve` answer no, even though lookup finds the parent's binding |
| Properties.FindShadow | ServiceLocator.hpp:592-612 | adding one binding changes lookup only for that identity, and only from containers below it whose nearest binding lay above it |
| Properties.FindAfterBind | ServiceLocator.hpp:688-701 | after `bind` in a container, lookup from anywhere finds the new binding exactly when the container is on its chain and the old nearest binding lay above it or did not exist; every other lookup is unchanged |
| Properties.FindExtended | ServiceLocator.hpp:661-685 | creating more containers changes no existing lookup |
| Properties.EnterInherits | ServiceLocator.hpp:678-685 | a container made by `enter` answers lookup and `canResolve` as its parent does |
| Properties.CanResolveExtended | ServiceLocator.hpp:661-685 | creating more containers changes no existing `canResolve` |
| Lifecycle.InstanceResolve | tests/ServiceLocatorTests.cpp:155-165 | with nothing queued on the root context, an instance binding is returned as bound and nothing is built |
| Lifecycle.SingletonFirst | ServiceLocator.hpp:369-384 | the first successful request for a singleton leaves its non-null instance cached |
| Lifecycle.SingletonCached | ServiceLocator.hpp:369-384 | with nothing queued on the root context, a cached singleton is returned as cached and nothing changes |
| Lifecycle.SingletonOnce | tests/ServiceLocatorTests.cpp:144-153 | once a singleton request succeeds, every later request returns the same instance and changes nothing |
| Lifecycle.NearestAccessor | ServiceLocator.hpp:592-612 | a successful request ran the nearest binding's accessor successfully and answers with its object |
| Lifecycle.TransientFresh | ServiceLocator.hpp:385-388 | each successful transient request returns an object numbered at or above the counter; when every held object is below the counter, it is no bound instance and no cached singleton |
| Lifecycle.NumberedBind | ServiceLocator.hpp:399-412 | binding an existing object, or any factory, keeps every held object numbered below the counter |
| Lifecycle.NumberedNewContainer | ServiceLocator.hpp:661-685 | `create` and `enter` keep every held object numbered below the counter |
| Lifecycle.TransientDistinct | tests/ServiceLocatorTests.cpp:167-175 | two successive transient requests return distinct objects |
| Forwarding.AliasSelfRecursive | ServiceLocator.hpp:469-490 | a transient alias (what `alias` leaves when no lifecycle clause follows) to its own identity throws RecursiveResolve whose path names the identity twice |
| Forwarding.AliasForwards | ServiceLocator.hpp:469-490 | with nothing queued on the root context, a transient alias whose target's nearest binding is an instance or a cached singleton answers with that very object, adds no cache entry and changes nothing |
| Forwarding.AliasToTransient | ServiceLocator.hpp:469-490 | with nothing queued on the root context, a transient alias to a transient whose constructor makes no requests answers with one new object, the counter's value, and nothing but the counter changes |
| Forwarding.SingletonAliasCaches | ServiceLocator.hpp:369-384 | with nothing queued on the root context, the first request for a singleton alias whose target's nearest binding is an instance or a cached singleton answers with that very object and caches it under the alias's own binding; nothing else changes |
| Forwarding.TagWrittenTwice | ServiceLocator.hpp:603-609 | after a child's factory yields null, the parent's constructing factory gets the same, already tagged frame and throws BindingIssue |
| Forwarding.MutualCycle | ServiceLocator.hpp:126-133 | two factories that each resolve the other throw RecursiveResolve with the full path `resolve<A>(a).to<CA> -> resolve<B>(b).to<CB> -> resolve<A>(a)` |
| Forwarding.ProviderInstance | ServiceLocator.hpp:266-294 | a provider call for an instance answers with it and changes nothing |
| Forwarding.ResolveStepCycle | ServiceLocator.hpp:204-210 | a `resolve` request for an identity on the chain fails at once |
| Forwarding.ProviderSkipsCycleCheck | ServiceLocator.hpp:266-279 | a provider obtains an identity that `resolve` from the same frame rejects as a cycle |
| Scenarios.NestedOverride | tests/ServiceLocatorTests.cpp:264-281 | a child may rebind its parent's identity; with nothing queued on either root context, the child then answers with its own binding and a sibling still answers with the parent's |
| Scenarios.EagerThenCached | tests/ServiceLocatorTests.cpp:319-329 | `getContext` builds an eager singleton, and when the eager runs leave nothing queued on the root context, a later request returns that very instance without building another |
| Scenarios.ResolveEachPlain | ServiceLocator.hpp:222-229 | over instances, cached singletons and transients whose constructors make no requests, the visits append the reference answers in visit order and only the counter moves |
| Scenarios.ResolveAllPlain | tests/ServiceLocatorTests.cpp:307-317 | with nothing queued on the root context, `resolveAll` answers each binding in `_visitAll` order: an instance with itself, a cached singleton with its object, a transient with a new object numbered after the previous one |
| Callbacks.RunCallbackIgnoresQueue | ServiceLocator.hpp:138-141 | a callback's run does not depend on the queue of the draining context |
| Callbacks.DrainInOrder | ServiceLocator.hpp:135-146 | the drain equals running the callbacks one after another, stopping at the first that throws; the queue is cleared after a full run and kept whole after a failure |
| Callbacks.CallbackAfterResolve | ServiceLocator.hpp:135-146 | a registered callback runs after the next successful request; if it throws, the request throws and the callback stays queued |
| Callbacks.FactoryCallbackAfterResolve | ServiceLocator.hpp:312-317 | a constructor's `afterResolve(fn)` queues `fn` on the root context; it runs after the top-level request has its new object, and if it throws, the request throws and `fn` stays queued |

## Left out

- Type identities are plain names. `typeid`, `std::type_index`, demangling and `dynamic_cast` between binding classes are not modelled.
- `create` and `enter` do not touch the root queues in the `Heap`. A new container's queue is empty because callbacks can only be registered on an existing container (`ServiceLocator.RegisterAfterResolve` requires it); a `Heap` built by hand may still hold a queue for a number not yet in use.
- Object lifetime is not modelled: `shared_ptr`, `weak_ptr` locking, `NoDelete` and destructors. Objects are numbered, not allocated.
- Exception message text is not modelled beyond the resolve path that `RecursiveResolve` and `UnableToResolve` carry and the type and name of `DuplicateBinding`.
- `Module` and `module_clause` are not part of this model.
- Thread safety is not modelled. The code has none, and the model is sequential.
- Factories whose requests depend on the answers they get are not modelled. A factory is a fixed list of requests, and only the kind of its result (object or null) is modelled.
- `toSelfNoDependancy` and `toNoDependancy` are folded into `Construct`. They differ from `to`/`toSelf` only in how the C++ object is built.
- `to(fnCreate)` is folded into `Construct` as well. A user factory that returns null is modelled by `yieldsNull`. A user factory that returns an object that already exists is not modelled: `Construct` always makes a new object.
- A builder left without any clause, whose `_fnGet` is empty, is not modelled. Every binding in the model has an accessor.
- Provider calls and deferred callbacks start a fresh root context, and in C++ they can recurse without bound. The model runs them on a `fuel` budget and raises `Exhausted` when it runs out. A program that needs more nested provider or callback calls than the budget allows is not modelled.
- `canResolve` on a `Context` (ServiceLocator.hpp:232-244) is `Scopes.CanResolve` directly. The frame it creates is never used.
- Scopes.CanResolve: has no `ensures` of its own. Its relation to lookup is stated by `Properties.CanResolveSound` and `Properties.CanResolveStopsAtTable`.
- Resolution.ResolveAllFrom: states the number of results, not their values. The values are stated by `Scenarios.ResolveAllPlain` for instances, cached singletons and transients whose constructors make no requests. Bindings that make nested requests are not covered.
- Resolution.ResolveAllFrom: returns a fresh sequence, and on an exception only the error. C++ `resolveAll` appends to the caller's vector as it goes (ServiceLocator.hpp:223-229), so the vector keeps what it held before, keeps the results pushed before a later visit throws, and holds every result when the drain throws. The model does not carry the caller's vector or these partial results.
- ServiceLocator.ResolveAll: states the number of results, not their values, for the same reason. See `Scenarios.ResolveAllPlain`.
- ServiceLocator.ResolveAll: on an exception it returns only the error, not the results already pushed into the caller's vector, for the reason given for `Resolution.ResolveAllFrom`.
- Forwarding.AliasForwards: covers transient aliases, what `alias` leaves when no lifecycle clause follows, whose target's nearest binding is an instance or a cached singleton. `Forwarding.AliasToTransient` covers transient targets whose constructors make no requests. `Forwarding.SingletonAliasCaches` covers the first request for a singleton alias to an instance or a cached singleton; later requests are covered by `Lifecycle.SingletonOnce`, which holds for any factory. Other targets are not covered by a lemma.
- Callbacks.RunAll: has no `ensures`. It is the reference definition that `Callbacks.DrainInOrder` equates the drain with.

=== FILE: base.dfy ===
/** Failure-carrying wrappers shared by every module of the service-locator model. */
module Base {

  /** An optional value: a missing table, a missing binding, an unset tag. */
  datatype Option<+T> = None | Some(value: T)

  /** The four exception classes of ServiceLocator.hpp, plus `Exhausted`, which the model
      raises when its fuel for callback drains and provider calls runs out. */
  datatype Error =
    | DuplicateBinding(t: string, name: string)
    | UnableToResolve(t: string, path: string)
    | RecursiveResolve(path: string)
    | BindingIssue
    | Exhausted

  /** The value of an operation that may throw one of the exceptions above. */
  datatype Result<+T> = Ok(value: T) | Err(error: Error)

  /** The outcome of an operation that returns nothing but may throw. */
  datatype Outcome = Pass | Fail(error: Error)

  function ToOutcome<T>(r: Result<T>): (o: Outcome)
    ensures o.Pass? <==> r.Ok?
    ensures r.Err? ==> o.error == r.error
  {
    match r
    case Ok(_) => Pass
    case Err(e) => Fail(e)
  }
}

=== FILE: bindings.dfy ===
/** What a binding declaration records: capability identities, instances, and the
    construction strategies the builder clauses of ServiceLocator.hpp select. C++ type
    identities are abstracted to their (already demangled) type names. */
module Bindings {

  /** A capability identity: a type and a name, `""` being the unnamed binding. */
  datatype Ident = Ident(t: string, name: string)

  /** A `shared_ptr` as the engine sees it: null, or an object known by a unique number. */
  datatype Ptr = Null | Obj(id: nat)

  /** `resolve` throws when nothing is found; `tryResolve` returns null. */
  datatype Mode = Must | Try

  /** The three `alias` clauses (ServiceLocator.hpp:469-490). */
  datatype AliasTarget =
    | SameType(name: string)
    | OtherType(t: string)
    | OtherTypeNamed(t: string, name: string)

  /** What a factory or a deferred callback asks of the context it is handed. Results are
      not inspected: a step list is a fixed program, whatever the answers are. */
  datatype Step =
    | Resolve(id: Ident)
    | TryResolve(id: Ident)
    | ResolveAll(t: string)
    | AfterResolve(cb: Callback)
    | Provide(id: Ident, mode: Mode)

  /** A callback registered with `afterResolve(fn)`. */
  datatype Callback = Callback(steps: seq<Step>)

  /** `_fnCreate`: the `to`/`toSelf` family tags the frame with the implementation type, runs
      the constructor's requests and yields a new object, or null when the user's factory
      returns a null pointer; `alias` forwards to a nested resolve. */
  datatype Factory =
    | Construct(impl: string, steps: seq<Step>, yieldsNull: bool)
    | Alias(target: AliasTarget)

  /** The accessor `_fnGet` a binding ends up with: the factory itself (the default, and
      `asTransient`), the self-replacing singleton accessor (`asSingleton`), or a constant
      (`toInstance`). A singleton's cached instance is kept by the resolution heap. */
  datatype Binding =
    | Transient(make: Factory)
    | Singleton(make: Factory)
    | Instance(value: Ptr)

  /** The identity an alias binding resolves when it is reached through a frame for `requested`. */
  function AliasOf(target: AliasTarget, requested: Ident): Ident
  {
    match target
    case SameType(n) => Ident(requested.t, n)
    case OtherType(t) => Ident(t, requested.name)
    case OtherTypeNamed(t, n) => Ident(t, n)
  }

  /** A factory that can never hand back null: an alias goes through `resolve`, which throws
      instead of returning null. */
  predicate NeverNull(f: Factory)
  {
    f.Alias? || !f.yieldsNull
  }
}

=== FILE: callbacks.dfy ===
/** The after-resolve queue of a root context: callbacks run in registration order, each from
    a fresh root context, once the top-level request that queued them has succeeded
    (ServiceLocator.hpp:135-146, 312-317). */
module Callbacks {
  import opened Base
  import opened Bindings
  import opened Frames
  import opened Scopes
  import opened Resolution
  import opened ServiceLocator
  import opened Properties
  import opened Lifecycle

  /** Reference semantics of a drain: run the callbacks one after the other on the heap, stopping
      at the first that throws. The queue of the context doing the draining is not involved. */
  function RunAll(L: Locator, fuel: nat, home: nat, cbs: seq<Callback>, h: Heap): (Outcome, Heap)
    requires Valid(L) && home < |L.scopes|
    decreases |cbs|
  {
    if cbs == [] then (Pass, h)
    else
      var (o, s1) := RunCallback(L, fuel, home, cbs[0], State(h, []));
      if o.Fail? then (o, s1.heap) else RunAll(L, fuel, home, cbs[1..], s1.heap)
  }

  /** A callback's run does not depend on the queue of the context that drains it. */
  lemma RunCallbackIgnoresQueue(L: Locator, fuel: nat, home: nat, cb: Callback, h: Heap, q: seq<Callback>)
    requires Valid(L) && home < |L.scopes|
    ensures RunCallback(L, fuel, home, cb, State(h, q)).0 == RunCallback(L, fuel, home, cb, State(h, [])).0
    ensures RunCallback(L, fuel, home, cb, State(h, q)).1 == RunCallback(L, fuel, home, cb, State(h, [])).1.(queue := q)
  {
  }

  /** The drain runs the queued callbacks in order, each once, stopping at the first that
      throws; it empties the queue when all have run, and keeps the WHOLE queue, the callbacks
      that already ran included, when one throws (ServiceLocator.hpp:135-146). */
  lemma {:induction false} DrainInOrder(L: Locator, fuel: nat, home: nat, cbs: seq<Callback>, i: nat, s: State)
    requires Valid(L) && home < |L.scopes| && i <= |cbs|
    ensures var ref := RunAll(L, fuel, home, cbs[i..], s.heap);
      Drain(L, fuel, home, cbs, i, s)
        == (ref.0, State(ref.1, if ref.0.Pass? then [] else s.queue))
    decreases |cbs| - i
  {
    if i < |cbs| {
      assert cbs[i..][0] == cbs[i] && cbs[i..][1..] == cbs[i + 1..];
      RunCallbackIgnoresQueue(L, fuel, home, cbs[i], s.heap, s.queue);
      var s1 := RunCallback(L, fuel, home, cbs[i], s).1;
      DrainInOrder(L, fuel, home, cbs, i + 1, s1);
    }
  }

  /** A callback registered on a container's root context runs when the next top-level request
      from that context succeeds, after the requested binding has been obtained: here an
      instance. If the callback throws, the request throws its exception and the callback stays
      queued (ServiceLocator.hpp:135-146, 204-216, 312-317). */
  lemma CallbackAfterResolve(L: Locator, h: Heap, fuel: nat, cid: nat, id: Ident, mode: Mode, v: nat, cb: Callback)
    requires Valid(L) && cid < |L.scopes| && id != Root.id
    requires Find(L, cid, id).Some?
    requires Here(L.scopes[Find(L, cid, id).value], id) == Some(Instance(Obj(v)))
    requires RootQueue(h, cid) == []
    ensures var h1 := RegisterAfterResolve(L, h, cid, cb);
      var run := RunCallback(L, fuel, cid, cb, State(h1, []));
      ServiceLocator.Resolve(L, h1, fuel, cid, id, mode)
        == if run.0.Pass? then (Ok(Obj(v)), WithRootQueue(run.1.heap, cid, []))
           else (Err(run.0.error), WithRootQueue(run.1.heap, cid, [cb]))
  {
    var h1 := RegisterAfterResolve(L, h, cid, cb);
    var c0 := Find(L, cid, id).value;
    var g := Frame(id, None);
    var s := TopState(h1, cid);
    assert s.queue == [cb];
    ResolveTop(L, h1, fuel, cid, id, mode);
    ResolveInNearest(L, fuel, cid, [Root], g, cid, mode, s);
    ResolveInBound(L, fuel, cid, [Root], g, c0, mode, s, Instance(Obj(v)));
    DrainInOrder(L, fuel, cid, [cb], 0, s);
    var run := RunCallback(L, fuel, cid, cb, State(h1, []));
    assert [cb][0..] == [cb] && [cb][1..] == [];
    assert RunAll(L, fuel, cid, [cb], h1) == (run.0, run.1.heap);
  }

  /** A constructor that calls `afterResolve(fn)` while it is being resolved queues `fn` on the
      ROOT context, not on its own frame; the callback runs once the top-level request has its
      object, from a fresh root context. If the callback throws, the request throws its
      exception, the object made is lost, and the callback stays queued for the next request
      (ServiceLocator.hpp:135-146, 204-216, 312-317). */
  lemma FactoryCallbackAfterResolve(L: Locator, h: Heap, fuel: nat, cid: nat, id: Ident, mode: Mode,
                                    impl: string, cb: Callback)
    requires Valid(L) && cid < |L.scopes| && id != Root.id
    requires Find(L, cid, id).Some?
    requires Here(L.scopes[Find(L, cid, id).value], id) == Some(Transient(Construct(impl, [Step.AfterResolve(cb)], false)))
    requires RootQueue(h, cid) == []
    ensures var h1 := h.(next := h.next + 1);
      var run := RunCallback(L, fuel, cid, cb, State(h1, []));
      ServiceLocator.Resolve(L, h, fuel, cid, id, mode)
        == if run.0.Pass? then (Ok(Obj(h.next)), WithRootQueue(run.1.heap, cid, []))
           else (Err(run.0.error), WithRootQueue(run.1.heap, cid, [cb]))
  {
    var c0 := Find(L, cid, id).value;
    var f := Construct(impl, [Step.AfterResolve(cb)], false);
    var g := Frame(id, None);
    var g1 := Frame(id, Some(impl));
    var s := TopState(h, cid);
    var sq := s.(queue := [cb]);
    var s1 := State(h.(next := h.next + 1), [cb]);
    assert s.queue == [] && s.queue + [cb] == [cb];
    assert Perform(L, fuel, cid, [Root, g1], Step.AfterResolve(cb), s) == (Pass, sq);
    assert RunSteps(L, fuel, cid, [Root] + [g1], [Step.AfterResolve(cb)], 0, s) == (Pass, sq);
    assert RunFactory(L, fuel, cid, [Root], g, f, s) == (Ok(Obj(h.next)), g1, s1);
    ResolveTop(L, h, fuel, cid, id, mode);
    ResolveInNearest(L, fuel, cid, [Root], g, cid, mode, s);
    ResolveInBound(L, fuel, cid, [Root], g, c0, mode, s, Transient(f));
    assert ResolveIn(L, fuel, cid, [Root], g, cid, mode, s) == (Ok(Obj(h.next)), s1);
    DrainInOrder(L, fuel, cid, [cb], 0, s1);
    var run := RunCallback(L, fuel, cid, cb, State(s1.heap, []));
    assert [cb][0..] == [cb] && [cb][1..] == [];
    assert RunAll(L, fuel, cid, [cb], s1.heap) == (run.0, run.1.heap);
  }
}

=== FILE: forwarding.dfy ===
/** Nested frames: alias forwarding, the cycle check, and the write-once concrete-type tag a
    frame carries through the parent fallback (ServiceLocator.hpp:126-133, 176-181, 469-490,
    592-612). */
module Forwarding {
  import opened Base
  import opened Bindings
  import opened Frames
  import opened Scopes
  import opened Resolution
  import opened ServiceLocator
  import opened Properties
  import opened Lifecycle

  /** An alias resolves its target through a child frame of the alias's own frame, so a
      transient alias (what `alias` leaves when no lifecycle clause follows) whose target is its
      own identity is a cycle: the request fails with RecursiveResolve,
      naming the identity twice, and nothing else happens. */
  lemma AliasSelfRecursive(L: Locator, h: Heap, fuel: nat, cid: nat, id: Ident, mode: Mode, target: AliasTarget)
    requires Valid(L) && cid < |L.scopes| && id != Root.id
    requires Find(L, cid, id).Some?
    requires Here(L.scopes[Find(L, cid, id).value], id) == Some(Transient(Alias(target)))
    requires AliasOf(target, id) == id
    ensures ServiceLocator.Resolve(L, h, fuel, cid, id, mode)
      == (Err(RecursiveResolve(Path([Root, Frame(id, None), Frame(id, None)]))), WithRootQueue(h, cid, RootQueue(h, cid)))
  {
    var c0 := Find(L, cid, id).value;
    var g := Frame(id, None);
    var s := TopState(h, cid);
    var e := Err(RecursiveResolve(Path([Root, g, g])));
    assert Ids([Root]) == {Root.id};
    assert Ids([Root, g]) == {Root.id, id};
    ResolveInNearest(L, fuel, cid, [Root], g, cid, mode, s);
    assert [Root] + [g] == [Root, g] && [Root, g] + [g] == [Root, g, g];
    assert ResolveFrom(L, fuel, cid, [Root, g], id, Must, s) == (e, s);
    assert RunFactory(L, fuel, cid, [Root], g, Alias(target), s) == (e, g, s);
    assert Accessor(L, fuel, cid, [Root], g, Ref(c0, id), Transient(Alias(target)), s) == (e, g, s);
    assert ResolveIn(L, fuel, cid, [Root], g, c0, mode, s) == (e, s);
    assert ResolveFrom(L, fuel, cid, [Root], id, mode, s) == (e, s);
  }

  /** Lookup of a transient alias from the root frame, when its target, resolved from the alias's frame,
      answers with a non-null object: the lookup answers with that object. */
  lemma AliasIn(L: Locator, fuel: nat, cid: nat, id: Ident, mode: Mode, target: AliasTarget, p: Ptr, s: State, s1: State)
    requires Valid(L) && cid < |L.scopes| && id != Root.id
    requires Find(L, cid, id).Some?
    requires Here(L.scopes[Find(L, cid, id).value], id) == Some(Transient(Alias(target)))
    requires p != Null
    requires ResolveFrom(L, fuel, cid, [Root, Frame(id, None)], AliasOf(target, id), Must, s) == (Ok(p), s1)
    ensures ResolveIn(L, fuel, cid, [Root], Frame(id, None), cid, mode, s) == (Ok(p), s1)
  {
    var c0 := Find(L, cid, id).value;
    var g := Frame(id, None);
    assert Ids([Root]) == {Root.id} && Tail([Root]) == [];
    assert [Root] + [g] == [Root, g];
    assert Accessor(L, fuel, cid, [Root], g, Ref(c0, id), Transient(Alias(target)), s) == (Ok(p), g, s1);
    ResolveInNearest(L, fuel, cid, [Root], g, cid, mode, s);
    ResolveInBound(L, fuel, cid, [Root], g, c0, mode, s, Transient(Alias(target)));
  }

  /** A top-level request for a transient alias whose target, resolved from the alias's frame, answers
      with a non-null object and leaves nothing queued: the request answers with that object. */
  lemma AliasAnswers(L: Locator, h: Heap, fuel: nat, cid: nat, id: Ident, mode: Mode, target: AliasTarget, p: Ptr, s1: State)
    requires Valid(L) && cid < |L.scopes| && id != Root.id
    requires Find(L, cid, id).Some?
    requires Here(L.scopes[Find(L, cid, id).value], id) == Some(Transient(Alias(target)))
    requires p != Null && s1.queue == []
    requires ResolveFrom(L, fuel, cid, [Root, Frame(id, None)], AliasOf(target, id), Must, TopState(h, cid)) == (Ok(p), s1)
    ensures ServiceLocator.Resolve(L, h, fuel, cid, id, mode) == (Ok(p), WithRootQueue(s1.heap, cid, []))
  {
    AliasIn(L, fuel, cid, id, mode, target, p, TopState(h, cid), s1);
    ResolveTop(L, h, fuel, cid, id, mode);
    assert Drain(L, fuel, cid, [], 0, s1) == (Pass, s1.(queue := []));
  }

  /** A transient alias (what `alias` leaves when no lifecycle clause follows) hands back what a
      `resolve` of its target, made from the alias's frame, hands back. When the target's nearest
      binding is an instance or an already cached singleton, the alias answers with that very object: no second singleton instance and no cache entry for
      the alias, and nothing else changes (ServiceLocator.hpp:469-490). */
  lemma AliasForwards(L: Locator, h: Heap, fuel: nat, cid: nat, id: Ident, mode: Mode, target: AliasTarget, p: Ptr)
    requires Valid(L) && cid < |L.scopes| && id != Root.id
    requires Find(L, cid, id).Some?
    requires Here(L.scopes[Find(L, cid, id).value], id) == Some(Transient(Alias(target)))
    requires AliasOf(target, id) != id && AliasOf(target, id) != Root.id
    requires Settled(L, h, cid, AliasOf(target, id)) == Some(p)
    requires RootQueue(h, cid) == []
    ensures ServiceLocator.Resolve(L, h, fuel, cid, id, mode) == (Ok(p), WithRootQueue(h, cid, []))
  {
    var id2 := AliasOf(target, id);
    var g := Frame(id, None);
    var g2 := Frame(id2, None);
    var s := TopState(h, cid);
    var ok := Ok(p);
    assert Ids([Root]) == {Root.id};
    assert Ids([Root, g]) == {Root.id, id};
    assert Tail([Root, g]) == [g];
    assert Ids([g]) == {id};
    assert [Root] + [g] == [Root, g];
    ResolveInSettled(L, fuel, cid, [Root, g], g2, cid, Must, s, p);
    assert ResolveFrom(L, fuel, cid, [Root, g], id2, Must, s) == (ok, s);
    AliasAnswers(L, h, fuel, cid, id, mode, target, p, s);
  }

  /** `alias` returns the lifecycle clause, so an alias may also be a singleton. Its first
      request forwards like a transient alias and then caches the forwarded object under the
      alias's own binding; the target's object is not copied or rebuilt
      (ServiceLocator.hpp:369-384, 469-490). */
  lemma SingletonAliasCaches(L: Locator, h: Heap, fuel: nat, cid: nat, id: Ident, mode: Mode, target: AliasTarget, p: Ptr)
    requires Valid(L) && cid < |L.scopes| && id != Root.id
    requires Find(L, cid, id).Some?
    requires Here(L.scopes[Find(L, cid, id).value], id) == Some(Singleton(Alias(target)))
    requires Ref(Find(L, cid, id).value, id) !in h.caches
    requires AliasOf(target, id) != id && AliasOf(target, id) != Root.id
    requires Settled(L, h, cid, AliasOf(target, id)) == Some(p)
    requires RootQueue(h, cid) == []
    ensures ServiceLocator.Resolve(L, h, fuel, cid, id, mode)
      == (Ok(p), WithRootQueue(h.(caches := h.caches[Ref(Find(L, cid, id).value, id) := p]), cid, []))
  {
    var c0 := Find(L, cid, id).value;
    var id2 := AliasOf(target, id);
    var g := Frame(id, None);
    var g2 := Frame(id2, None);
    var s := TopState(h, cid);
    var s2 := s.(heap := h.(caches := h.caches[Ref(c0, id) := p]));
    assert Ids([Root]) == {Root.id} && Tail([Root]) == [];
    assert Ids([Root, g]) == {Root.id, id};
    assert Tail([Root, g]) == [g];
    assert Ids([g]) == {id};
    assert [Root] + [g] == [Root, g];
    ResolveInSettled(L, fuel, cid, [Root, g], g2, cid, Must, s, p);
    assert ResolveFrom(L, fuel, cid, [Root, g], id2, Must, s) == (Ok(p), s);
    assert RunFactory(L, fuel, cid, [Root], g, Alias(target), s) == (Ok(p), g, s);
    assert Accessor(L, fuel, cid, [Root], g, Ref(c0, id), Singleton(Alias(target)), s) == (Ok(p), g, s2);
    ResolveInNearest(L, fuel, cid, [Root], g, cid, mode, s);
    ResolveInBound(L, fuel, cid, [Root], g, c0, mode, s, Singleton(Alias(target)));
    assert ResolveIn(L, fuel, cid, [Root], g, cid, mode, s) == (Ok(p), s2);
    ResolveTop(L, h, fuel, cid, id, mode);
    assert Drain(L, fuel, cid, [], 0, s2) == (Pass, s2.(queue := []));
  }

  /** A transient alias to a transient whose constructor makes no requests yields a new object per request,
      made through a child frame of the alias's frame: the alias's own frame is never tagged, so
      the constructor's tag write succeeds (ServiceLocator.hpp:469-490, 414-467). */
  lemma AliasToTransient(L: Locator, h: Heap, fuel: nat, cid: nat, id: Ident, mode: Mode, target: AliasTarget, impl: string)
    requires Valid(L) && cid < |L.scopes| && id != Root.id
    requires Find(L, cid, id).Some?
    requires Here(L.scopes[Find(L, cid, id).value], id) == Some(Transient(Alias(target)))
    requires AliasOf(target, id) != id && AliasOf(target, id) != Root.id
    requires Find(L, cid, AliasOf(target, id)).Some?
    requires Here(L.scopes[Find(L, cid, AliasOf(target, id)).value], AliasOf(target, id))
      == Some(Transient(Construct(impl, [], false)))
    requires RootQueue(h, cid) == []
    ensures ServiceLocator.Resolve(L, h, fuel, cid, id, mode)
      == (Ok(Obj(h.next)), WithRootQueue(h.(next := h.next + 1), cid, []))
  {
    var c0 := Find(L, cid, id).value;
    var id2 := AliasOf(target, id);
    var c2 := Find(L, cid, id2).value;
    var g := Frame(id, None);
    var g2 := Frame(id2, None);
    var g3 := Frame(id2, Some(impl));
    var s := TopState(h, cid);
    var s1 := s.(heap := h.(next := h.next + 1));
    var ok := Ok(Obj(h.next));
    assert Ids([Root]) == {Root.id};
    assert Ids([Root, g]) == {Root.id, id};
    assert Tail([Root, g]) == [g];
    assert Ids([g]) == {id};
    assert [Root] + [g] == [Root, g];
    assert RunSteps(L, fuel, cid, [Root, g] + [g3], [], 0, s) == (Pass, s);
    assert RunFactory(L, fuel, cid, [Root, g], g2, Construct(impl, [], false), s) == (ok, g3, s1);
    ResolveInNearest(L, fuel, cid, [Root, g], g2, cid, Must, s);
    ResolveInBound(L, fuel, cid, [Root, g], g2, c2, Must, s, Transient(Construct(impl, [], false)));
    assert ResolveIn(L, fuel, cid, [Root, g], g2, c2, Must, s) == (ok, s1);
    assert ResolveFrom(L, fuel, cid, [Root, g], id2, Must, s) == (ok, s1);
    AliasAnswers(L, h, fuel, cid, id, mode, target, Obj(h.next), s1);
  }

  /** The concrete-type tag belongs to the frame, not to the binding, and may be written once.
      When a child container's constructing factory yields null, the parent is tried with the
      SAME, now tagged, frame, so a constructing factory in the parent throws BindingIssue
      instead of running, for `resolve` and `tryResolve` alike (ServiceLocator.hpp:176-181,
      414-467, 603-609, 652-655). */
  lemma TagWrittenTwice(L: Locator, h: Heap, fuel: nat, cid: nat, p: nat, id: Ident, mode: Mode,
                        impl: string, parentImpl: string, parentSteps: seq<Step>, parentNull: bool)
    requires Valid(L) && cid < |L.scopes| && id != Root.id
    requires L.scopes[cid].parent == Some(p)
    requires Here(L.scopes[cid], id) == Some(Transient(Construct(impl, [], true)))
    requires p < |L.scopes| && Here(L.scopes[p], id) == Some(Transient(Construct(parentImpl, parentSteps, parentNull)))
    ensures ServiceLocator.Resolve(L, h, fuel, cid, id, mode)
      == (Err(BindingIssue), WithRootQueue(h, cid, RootQueue(h, cid)))
  {
    var g := Frame(id, None);
    var g1 := Frame(id, Some(impl));
    var s := TopState(h, cid);
    var e := Err(BindingIssue);
    assert Ids([Root]) == {Root.id};
    assert Tail([Root]) == [];
    assert SetConcreteType(g, impl) == Ok(g1);
    assert RunSteps(L, fuel, cid, [Root, g1], [], 0, s) == (Pass, s);
    assert [Root] + [g1] == [Root, g1];
    assert RunFactory(L, fuel, cid, [Root], g, Construct(impl, [], true), s) == (Ok(Null), g1, s);
    assert Accessor(L, fuel, cid, [Root], g, Ref(cid, id), Transient(Construct(impl, [], true)), s) == (Ok(Null), g1, s);
    assert Accessor(L, fuel, cid, [Root], g1, Ref(p, id), Transient(Construct(parentImpl, parentSteps, parentNull)), s)
      == (e, g1, s);
    assert ResolveIn(L, fuel, cid, [Root], g1, p, mode, s) == (e, s);
    assert ResolveIn(L, fuel, cid, [Root], g, cid, mode, s) == (e, s);
    assert ResolveFrom(L, fuel, cid, [Root], id, mode, s) == (e, s);
  }

  /** The inner half of `MutualCycle`: the factory for `b`, run below a frame already tagged
      for `a`, meets `a` on the chain. */
  lemma MutualCycleInner(L: Locator, fuel: nat, cid: nat, a: Ident, b: Ident, implA: string, implB: string, s: State)
    requires Valid(L) && cid < |L.scopes|
    requires a != Root.id && b != Root.id && a != b
    requires Here(L.scopes[cid], b) == Some(Transient(Construct(implB, [Step.Resolve(a)], false)))
    ensures ResolveFrom(L, fuel, cid, [Root, Frame(a, Some(implA))], b, Must, s)
      == (Err(RecursiveResolve(Path([Root, Frame(a, Some(implA)), Frame(b, Some(implB)), Frame(a, None)]))), s)
  {
    var gA := Frame(a, None);
    var gA1 := Frame(a, Some(implA));
    var gB := Frame(b, None);
    var gB1 := Frame(b, Some(implB));
    var fB := Construct(implB, [Step.Resolve(a)], false);
    var path := [Root, gA1, gB1, gA];
    var err := RecursiveResolve(Path(path));
    var e := Err(err);
    assert Ids([Root, gA1]) == {Root.id, a} && Tail([Root, gA1]) == [gA1] && Ids([gA1]) == {a};
    assert Ids([Root, gA1, gB1]) == {Root.id, a, b};
    assert [Root, gA1] + [gB1] == [Root, gA1, gB1];
    assert [Root, gA1, gB1] + [gA] == path;
    assert ResolveFrom(L, fuel, cid, [Root, gA1, gB1], a, Must, s) == (e, s);
    assert Perform(L, fuel, cid, [Root, gA1, gB1], Step.Resolve(a), s) == (Fail(err), s);
    assert RunSteps(L, fuel, cid, [Root, gA1, gB1], [Step.Resolve(a)], 0, s) == (Fail(err), s);
    assert RunFactory(L, fuel, cid, [Root, gA1], gB, fB, s) == (e, gB1, s);
    assert Accessor(L, fuel, cid, [Root, gA1], gB, Ref(cid, b), Transient(fB), s) == (e, gB1, s);
    assert ResolveIn(L, fuel, cid, [Root, gA1], gB, cid, Must, s) == (e, s);
    assert ResolveFrom(L, fuel, cid, [Root, gA1], b, Must, s) == (e, s);
  }

  /** Two constructing factories that each resolve the other: the second request for the first
      identity meets it on the chain and throws RecursiveResolve, whose path names every frame
      below the root with the concrete types already written (ServiceLocator.hpp:126-133,
      204-216, 296-310). */
  lemma MutualCycle(L: Locator, h: Heap, fuel: nat, cid: nat, a: Ident, b: Ident, mode: Mode,
                    implA: string, implB: string)
    requires Valid(L) && cid < |L.scopes|
    requires a != Root.id && b != Root.id && a != b
    requires Here(L.scopes[cid], a) == Some(Transient(Construct(implA, [Step.Resolve(b)], false)))
    requires Here(L.scopes[cid], b) == Some(Transient(Construct(implB, [Step.Resolve(a)], false)))
    ensures ServiceLocator.Resolve(L, h, fuel, cid, a, mode)
      == (Err(RecursiveResolve(Segment(Frame(a, Some(implA))) + " -> " + Segment(Frame(b, Some(implB)))
                               + " -> " + Segment(Frame(a, None)))),
          WithRootQueue(h, cid, RootQueue(h, cid)))
  {
    var gA := Frame(a, None);
    var gA1 := Frame(a, Some(implA));
    var gB := Frame(b, None);
    var gB1 := Frame(b, Some(implB));
    var fA := Construct(implA, [Step.Resolve(b)], false);
    var fB := Construct(implB, [Step.Resolve(a)], false);
    var s := TopState(h, cid);
    var path := [Root, gA1, gB1, gA];
    assert Path(path) == Segment(gA1) + " -> " + Segment(gB1) + " -> " + Segment(gA) by {
      assert path[..3] == [Root, gA1, gB1] && [Root, gA1, gB1][..2] == [Root, gA1];
      assert Path([Root, gA1]) == Segment(gA1);
      assert Path([Root, gA1, gB1]) == Segment(gA1) + " -> " + Segment(gB1);
      assert Path(path) == Path([Root, gA1, gB1]) + " -> " + Segment(gA);
    }
    var err := RecursiveResolve(Path(path));
    var e := Err(err);
    assert Ids([Root]) == {Root.id} && Tail([Root]) == [];
    assert Ids([Root, gA1]) == {Root.id, a} && Tail([Root, gA1]) == [gA1] && Ids([gA1]) == {a};
    assert [Root] + [gA1] == [Root, gA1];
    MutualCycleInner(L, fuel, cid, a, b, implA, implB, s);
    // the outer factory, for a, fails with it
    assert Perform(L, fuel, cid, [Root, gA1], Step.Resolve(b), s) == (Fail(err), s);
    assert RunSteps(L, fuel, cid, [Root, gA1], [Step.Resolve(b)], 0, s) == (Fail(err), s);
    assert RunFactory(L, fuel, cid, [Root], gA, fA, s) == (e, gA1, s);
    assert Accessor(L, fuel, cid, [Root], gA, Ref(cid, a), Transient(fA), s) == (e, gA1, s);
    assert ResolveIn(L, fuel, cid, [Root], gA, cid, mode, s) == (e, s);
    ResolveTop(L, h, fuel, cid, a, mode);
  }

  /** A provider call for an identity whose nearest binding is an instance hands back the
      instance and leaves the caller's state as it was. */
  lemma ProviderInstance(L: Locator, fuel: nat, home: nat, id: Ident, mode: Mode, v: nat, s: State)
    requires Valid(L) && home < |L.scopes| && fuel > 0
    requires Find(L, home, id).Some?
    requires Here(L.scopes[Find(L, home, id).value], id) == Some(Instance(Obj(v)))
    ensures ProviderCall(L, fuel, home, id, mode, s) == (Ok(Obj(v)), s)
  {
    var g := Frame(id, None);
    var s0 := s.(queue := []);
    var none: seq<Frame> := [];
    assert Ids(Tail(none)) == {};
    var f1: nat := fuel - 1;
    var r := ResolveIn(L, f1, home, none, g, home, mode, s0);
    ResolveInInstance(L, f1, home, none, g, home, mode, s0, v);
    assert r == (Ok(Obj(v)), s0);
    ProviderQuiet(L, fuel, home, id, mode, s, s0, Obj(v));
  }

  /** A `resolve` request for an identity already on the chain fails at once. */
  lemma ResolveStepCycle(L: Locator, fuel: nat, home: nat, chain: seq<Frame>, id: Ident, s: State)
    requires Valid(L) && home < |L.scopes| && |chain| > 0 && id in Ids(chain)
    ensures Perform(L, fuel, home, chain, Step.Resolve(id), s)
      == (Fail(RecursiveResolve(Path(chain + [Frame(id, None)]))), s)
  {
    assert ResolveFrom(L, fuel, home, chain, id, Must, s)
      == (Err(RecursiveResolve(Path(chain + [Frame(id, None)]))), s);
  }

  /** A provider starts from a fresh root context, so a factory may obtain, through a provider,
      an identity that its own `resolve` would reject as a cycle (ServiceLocator.hpp:266-294). */
  lemma ProviderSkipsCycleCheck(L: Locator, fuel: nat, home: nat, chain: seq<Frame>, id: Ident, mode: Mode, v: nat, s: State)
    requires Valid(L) && home < |L.scopes| && |chain| > 0 && fuel > 0
    requires id in Ids(chain)
    requires Find(L, home, id).Some?
    requires Here(L.scopes[Find(L, home, id).value], id) == Some(Instance(Obj(v)))
    ensures Perform(L, fuel, home, chain, Step.Resolve(id), s)
      == (Fail(RecursiveResolve(Path(chain + [Frame(id, None)]))), s)
    ensures Perform(L, fuel, home, chain, Step.Provide(id, mode), s) == (Pass, s)
  {
    ResolveStepCycle(L, fuel, home, chain, id, s);
    ProviderInstance(L, fuel, home, id, mode, v, s);
    assert ToOutcome(Ok(Obj(v))) == Pass;
  }
}

=== FILE: frames.dfy ===
/** `ServiceLocator::Context`: one frame of an in-flight resolve (ServiceLocator.hpp:85-318).
    A chain of frames is a sequence whose first element is the root frame and whose last
    element is the frame being discussed; every frame of a chain shares the root's container. */
module Frames {
  import opened Base
  import opened Bindings

  /** The requested identity and the write-once concrete-type tag. */
  datatype Frame = Frame(id: Ident, tag: Option<string>)

  /** The root context every container creates for itself, and every deferred callback
      receives: its interface type is `void` and its name is empty. */
  const Root: Frame := Frame(Ident("void", ""), None)

  function Ids(chain: seq<Frame>): set<Ident>
  {
    set f | f in chain :: f.id
  }

  /** The frames below the root. */
  function Tail(chain: seq<Frame>): seq<Frame>
  {
    if chain == [] then [] else chain[1..]
  }

  lemma TailIds(chain: seq<Frame>)
    ensures Ids(Tail(chain)) <= Ids(chain)
  {
  }

  lemma IdsSnoc(chain: seq<Frame>, g: Frame)
    ensures Ids(chain + [g]) == Ids(chain) + {g.id}
    ensures chain != [] ==> Ids(Tail(chain + [g])) == Ids(Tail(chain)) + {g.id}
    ensures chain == [] ==> Ids(Tail(chain + [g])) == {}
  {
    if chain != [] {
      assert Tail(chain + [g]) == Tail(chain) + [g];
    }
  }

  /** `setConcreteType`: the tag may be written once; a second write throws BindingIssue
      (ServiceLocator.hpp:176-181). */
  function SetConcreteType(f: Frame, impl: string): (r: Result<Frame>)
    ensures r.Ok? <==> f.tag.None?
    ensures r.Ok? ==> r.value.id == f.id && r.value.tag == Some(impl)
    ensures r.Err? ==> r.error == BindingIssue
  {
    if f.tag.Some? then Err(BindingIssue) else Ok(Frame(f.id, Some(impl)))
  }

  /** One `resolve<T>(name)` segment, followed by `.to<C>` once the concrete type is known. */
  function Segment(f: Frame): string
  {
    "resolve<" + f.id.t + ">(" + f.id.name + ")"
      + (if f.tag.Some? then ".to<" + f.tag.value + ">" else "")
  }

  /** `getResolvePath` of the last frame of `chain`: the parent's path and `" -> "` come first
      whenever the parent is not the root, and a lone root renders as its own segment
      (ServiceLocator.hpp:296-310). */
  function Path(chain: seq<Frame>): string
    requires |chain| > 0
  {
    if |chain| >= 3 then Path(chain[..|chain| - 1]) + " -> " + Segment(chain[|chain| - 1])
    else Segment(chain[|chain| - 1])
  }

  function Segments(frames: seq<Frame>): (r: seq<string>)
    ensures |r| == |frames|
    ensures forall i :: 0 <= i < |frames| ==> r[i] == Segment(frames[i])
  {
    if frames == [] then [] else [Segment(frames[0])] + Segments(frames[1..])
  }

  function Join(parts: seq<string>): string
    requires |parts| > 0
  {
    if |parts| == 1 then parts[0] else parts[0] + " -> " + Join(parts[1..])
  }

  lemma {:induction false} JoinSnoc(parts: seq<string>, x: string)
    requires |parts| > 0
    ensures Join(parts + [x]) == Join(parts) + " -> " + x
  {
    if |parts| > 1 {
      assert (parts + [x])[1..] == parts[1..] + [x];
      JoinSnoc(parts[1..], x);
    }
  }

  /** The rendered path is one segment per frame below the root, joined by `" -> "`, in
      chain order. */
  lemma {:induction false} PathIsJoin(chain: seq<Frame>)
    requires |chain| >= 2
    ensures Path(chain) == Join(Segments(chain[1..]))
  {
    var n := |chain|;
    if n >= 3 {
      var front := chain[..n - 1];
      PathIsJoin(front);
      assert chain[1..] == front[1..] + [chain[n - 1]];
      assert Segments(chain[1..]) == Segments(front[1..]) + [Segment(chain[n - 1])];
      JoinSnoc(Segments(front[1..]), Segment(chain[n - 1]));
    } else {
      assert Segments(chain[1..]) == [Segment(chain[1])];
    }
  }
}

=== FILE: lexical.dfy ===
/** The order of `std::map<std::string, ...>` keys: lexicographic comparison of character
    codes, where a proper prefix comes first. */
module Lexical {

  predicate Less(a: string, b: string)
  {
    |b| > 0 && (|a| == 0 || a[0] < b[0] || (a[0] == b[0] && Less(a[1..], b[1..])))
  }

  lemma {:induction false} Irreflexive(a: string)
    ensures !Less(a, a)
  {
    if |a| > 0 {
      Irreflexive(a[1..]);
    }
  }

  lemma {:induction false} Transitive(a: string, b: string, c: string)
    requires Less(a, b) && Less(b, c)
    ensures Less(a, c)
  {
    if |a| > 0 && a[0] == b[0] && b[0] == c[0] {
      Transitive(a[1..], b[1..], c[1..]);
    }
  }

  lemma {:induction false} Total(a: string, b: string)
    requires a != b
    ensures Less(a, b) || Less(b, a)
  {
    if |a| > 0 && |b| > 0 && a[0] == b[0] {
      Total(a[1..], b[1..]);
    }
  }
}

=== FILE: lifecycle.dfy ===
/** The three lifecycle strategies, seen through top-level requests: an instance is returned as
    bound, a singleton's factory runs at most once, a transient's factory runs on every request
    (ServiceLocator.hpp:369-412). */
module Lifecycle {
  import opened Base
  import opened Bindings
  import opened Frames
  import opened Scopes
  import opened Resolution
  import opened ServiceLocator
  import opened Properties

  /** An instance binding, when it is the nearest binding, is returned as bound and no factory
      runs: the heap is untouched (ServiceLocator.hpp:399-412). */
  lemma InstanceResolve(L: Locator, h: Heap, fuel: nat, cid: nat, id: Ident, mode: Mode, v: nat)
    requires Valid(L) && cid < |L.scopes| && id != Root.id
    requires Find(L, cid, id).Some? && Find(L, cid, id).value < |L.scopes|
    requires Here(L.scopes[Find(L, cid, id).value], id) == Some(Instance(Obj(v)))
    requires RootQueue(h, cid) == []
    ensures ServiceLocator.Resolve(L, h, fuel, cid, id, mode) == (Ok(Obj(v)), WithRootQueue(h, cid, []))
  {
    var g := Frame(id, None);
    var s := State(h, RootQueue(h, cid));
    assert Ids([Root]) == {Root.id};
    ResolveInNearest(L, fuel, cid, [Root], g, cid, mode, s);
    var c0 := Find(L, cid, id).value;
    var ref := Ref(c0, id);
    assert Accessor(L, fuel, cid, [Root], g, ref, Instance(Obj(v)), s) == (Ok(Obj(v)), g, s);
    assert ResolveIn(L, fuel, cid, [Root], g, c0, mode, s) == (Ok(Obj(v)), s);
    assert Drain(L, fuel, cid, [], 0, s) == (Pass, s.(queue := []));
    assert ResolveFrom(L, fuel, cid, [Root], id, mode, s) == (Ok(Obj(v)), s.(queue := []));
  }

  /** The first successful resolve of a singleton leaves its instance cached. */
  lemma SingletonFirst(L: Locator, h: Heap, fuel: nat, cid: nat, id: Ident, mode: Mode, f: Factory)
    requires Valid(L) && cid < |L.scopes| && id != Root.id && Coherent(L, h)
    requires Find(L, cid, id).Some?
    requires Here(L.scopes[Find(L, cid, id).value], id) == Some(Singleton(f)) && NeverNull(f)
    requires ServiceLocator.Resolve(L, h, fuel, cid, id, mode).0.Ok?
    ensures var (r, h1) := ServiceLocator.Resolve(L, h, fuel, cid, id, mode);
      && r.value != Null
      && Ref(Find(L, cid, id).value, id) in h1.caches
      && h1.caches[Ref(Find(L, cid, id).value, id)] == r.value
  {
    var c0 := Find(L, cid, id).value;
    var ref := Ref(c0, id);
    var g := Frame(id, None);
    assert Ids([Root]) == {Root.id};
    var s := TopState(h, cid);
    ResolveInNearest(L, fuel, cid, [Root], g, cid, mode, s);
    var (ra, g1, s1) := Accessor(L, fuel, cid, [Root], g, ref, Singleton(f), s);
    assert ResolveIn(L, fuel, cid, [Root], g, c0, mode, s) == (ra, s1);
    var s2 := Drain(L, fuel, cid, s1.queue, 0, s1).1;
    assert ResolveFrom(L, fuel, cid, [Root], id, mode, s).1 == s2;
  }

  /** A cached, non-null singleton instance is returned without running anything. */
  lemma SingletonCached(L: Locator, h: Heap, fuel: nat, cid: nat, id: Ident, mode: Mode, f: Factory)
    requires Valid(L) && cid < |L.scopes| && id != Root.id
    requires Find(L, cid, id).Some?
    requires Here(L.scopes[Find(L, cid, id).value], id) == Some(Singleton(f))
    requires Ref(Find(L, cid, id).value, id) in h.caches
    requires h.caches[Ref(Find(L, cid, id).value, id)] != Null
    requires cid in h.roots && h.roots[cid] == []
    ensures ServiceLocator.Resolve(L, h, fuel, cid, id, mode)
      == (Ok(h.caches[Ref(Find(L, cid, id).value, id)]), h)
  {
    var c0 := Find(L, cid, id).value;
    var ref := Ref(c0, id);
    var p := h.caches[ref];
    var g := Frame(id, None);
    assert Ids([Root]) == {Root.id};
    var t := TopState(h, cid);
    ResolveInNearest(L, fuel, cid, [Root], g, cid, mode, t);
    assert Accessor(L, fuel, cid, [Root], g, ref, Singleton(f), t) == (Ok(p), g, t);
    assert ResolveIn(L, fuel, cid, [Root], g, c0, mode, t) == (Ok(p), t);
    assert Drain(L, fuel, cid, [], 0, t) == (Pass, t);
    assert ResolveFrom(L, fuel, cid, [Root], id, mode, t) == (Ok(p), t);
    assert h.roots[cid := []] == h.roots;
  }

  /** A singleton runs its factory at most once: once a resolve of it succeeds, its instance is
      cached, and every later resolve returns that instance and changes nothing
      (ServiceLocator.hpp:369-384; tests/ServiceLocatorTests.cpp:144-153, 250-262). */
  lemma SingletonOnce(L: Locator, h: Heap, fuel: nat, fuel2: nat, cid: nat, id: Ident, mode: Mode, mode2: Mode, f: Factory)
    requires Valid(L) && cid < |L.scopes| && id != Root.id && Coherent(L, h)
    requires Find(L, cid, id).Some?
    requires Here(L.scopes[Find(L, cid, id).value], id) == Some(Singleton(f)) && NeverNull(f)
    requires ServiceLocator.Resolve(L, h, fuel, cid, id, mode).0.Ok?
    ensures var (r, h1) := ServiceLocator.Resolve(L, h, fuel, cid, id, mode);
      ServiceLocator.Resolve(L, h1, fuel2, cid, id, mode2) == (r, h1)
  {
    var (r, h1) := ServiceLocator.Resolve(L, h, fuel, cid, id, mode);
    SingletonFirst(L, h, fuel, cid, id, mode, f);
    assert cid in h1.roots && h1.roots[cid] == [];
    SingletonCached(L, h1, fuel2, cid, id, mode2, f);
  }

  /** When a top-level request succeeds, the accessor of the nearest binding succeeded too, and
      when that accessor gave an object, the request answers with it. */
  lemma NearestAccessor(L: Locator, h: Heap, fuel: nat, cid: nat, id: Ident, mode: Mode, b: Binding)
    requires Valid(L) && cid < |L.scopes| && id != Root.id
    requires Find(L, cid, id).Some? && Here(L.scopes[Find(L, cid, id).value], id) == Some(b)
    requires ServiceLocator.Resolve(L, h, fuel, cid, id, mode).0.Ok?
    ensures var acc := Accessor(L, fuel, cid, [Root], Frame(id, None), Ref(Find(L, cid, id).value, id), b, TopState(h, cid));
      && acc.0.Ok?
      && (acc.0.value != Null ==>
            && ServiceLocator.Resolve(L, h, fuel, cid, id, mode).0 == acc.0
            && acc.2.heap.next <= ServiceLocator.Resolve(L, h, fuel, cid, id, mode).1.next)
  {
    var c0 := Find(L, cid, id).value;
    var g := Frame(id, None);
    var s := TopState(h, cid);
    ResolveTop(L, h, fuel, cid, id, mode);
    ResolveInNearest(L, fuel, cid, [Root], g, cid, mode, s);
    ResolveInBound(L, fuel, cid, [Root], g, c0, mode, s, b);
  }

  /** A transient whose factory yields an object makes a new one on every successful request:
      its number is at or above the counter, so when every object the program holds is numbered
      below the counter, the result is none of them: no bound instance and no cached singleton
      (ServiceLocator.hpp:385-388). */
  lemma TransientFresh(L: Locator, h: Heap, fuel: nat, cid: nat, id: Ident, mode: Mode,
                       impl: string, steps: seq<Step>)
    requires Valid(L) && cid < |L.scopes| && id != Root.id
    requires Find(L, cid, id).Some?
    requires Here(L.scopes[Find(L, cid, id).value], id) == Some(Transient(Construct(impl, steps, false)))
    requires ServiceLocator.Resolve(L, h, fuel, cid, id, mode).0.Ok?
    ensures var (r, h1) := ServiceLocator.Resolve(L, h, fuel, cid, id, mode);
      r.value.Obj? && h.next <= r.value.id < h1.next
    ensures var r := ServiceLocator.Resolve(L, h, fuel, cid, id, mode).0.value;
      Numbered(L, h) ==>
        && (forall ref :: ref in h.caches ==> h.caches[ref] != r)
        && (forall i, x :: 0 <= i < |L.scopes| ==> Here(L.scopes[i], x) != Some(Instance(r)))
  {
    NearestAccessor(L, h, fuel, cid, id, mode, Transient(Construct(impl, steps, false)));
  }

  /** Two successive requests for a transient give two distinct objects
      (tests/ServiceLocatorTests.cpp:167-175, 235-248). */
  lemma TransientDistinct(L: Locator, h: Heap, fuel: nat, fuel2: nat, cid: nat, id: Ident, mode: Mode,
                          impl: string, steps: seq<Step>)
    requires Valid(L) && cid < |L.scopes| && id != Root.id
    requires Find(L, cid, id).Some?
    requires Here(L.scopes[Find(L, cid, id).value], id) == Some(Transient(Construct(impl, steps, false)))
    requires ServiceLocator.Resolve(L, h, fuel, cid, id, mode).0.Ok?
    requires ServiceLocator.Resolve(L, ServiceLocator.Resolve(L, h, fuel, cid, id, mode).1, fuel2, cid, id, mode).0.Ok?
    ensures var (r1, h1) := ServiceLocator.Resolve(L, h, fuel, cid, id, mode);
      var (r2, _) := ServiceLocator.Resolve(L, h1, fuel2, cid, id, mode);
      r1.value != r2.value
  {
    var h1 := ServiceLocator.Resolve(L, h, fuel, cid, id, mode).1;
    TransientFresh(L, h, fuel, cid, id, mode, impl, steps);
    TransientFresh(L, h1, fuel2, cid, id, mode, impl, steps);
  }

  /** Objects handed to `toInstance` exist before they are bound, so a bind keeps every held
      object numbered below the counter (ServiceLocator.hpp:399-412, 688-701). */
  lemma NumberedBind(L: Locator, h: Heap, cid: nat, id: Ident, b: Binding, eager: bool)
    requires Valid(L) && cid < |L.scopes| && Numbered(L, h)
    requires b.Instance? ==> Below(b.value, h.next)
    requires eager ==> b.Singleton?
    requires Bind(L, cid, id, b, eager).Ok?
    ensures Numbered(Bind(L, cid, id, b, eager).value, h)
  {
    var L' := Bind(L, cid, id, b, eager).value;
    forall i, x | 0 <= i < |L'.scopes| && Here(L'.scopes[i], x).Some? && Here(L'.scopes[i], x).value.Instance?
      ensures Below(Here(L'.scopes[i], x).value.value, h.next)
    {
      if i != cid || x != id {
        assert Here(L'.scopes[i], x) == Here(L.scopes[i], x);
      }
    }
  }

  /** A new container holds no objects, so `create` and `enter` keep every held object numbered
      below the counter (ServiceLocator.hpp:661-685). */
  lemma NumberedNewContainer(L: Locator, h: Heap, cid: nat)
    requires Valid(L) && cid < |L.scopes| && Numbered(L, h)
    ensures Numbered(Create(L).0, h)
    ensures Numbered(Enter(L, cid).0, h)
  {
    var L1 := Create(L).0;
    var L2 := Enter(L, cid).0;
    forall i, x | 0 <= i < |L1.scopes| && Here(L1.scopes[i], x).Some? && Here(L1.scopes[i], x).value.Instance?
      ensures Below(Here(L1.scopes[i], x).value.value, h.next)
    {
      assert i < |L.scopes| && L1.scopes[i] == L.scopes[i];
    }
    forall i, x | 0 <= i < |L2.scopes| && Here(L2.scopes[i], x).Some? && Here(L2.scopes[i], x).value.Instance?
      ensures Below(Here(L2.scopes[i], x).value.value, h.next)
    {
      assert i < |L.scopes| && L2.scopes[i] == L.scopes[i];
    }
  }
}

=== FILE: properties.dfy ===
/** Properties of the resolution engine that relate several calls, or a call to the tree it
    runs on. */
module Properties {
  import opened Base
  import opened Bindings
  import opened Frames
  import opened Scopes
  import opened Resolution
  import opened ServiceLocator

  /** With no binding for the identity anywhere on the parent chain, the fallback runs to the top
      container and throws UnableToResolve (`resolve`) or yields null (`tryResolve`), running no
      accessor and leaving the state alone. */
  lemma {:induction false} ResolveInUnbound(L: Locator, fuel: nat, home: nat, chain: seq<Frame>, g: Frame,
                                            cid: nat, mode: Mode, s: State)
    requires Valid(L) && home < |L.scopes| && cid < |L.scopes| && g.id !in Ids(Tail(chain))
    requires Find(L, cid, g.id) == None
    ensures ResolveIn(L, fuel, home, chain, g, cid, mode, s)
      == (if mode == Must then Err(UnableToResolve(g.id.t, Path(chain + [g]))) else Ok(Null), s)
    decreases cid
  {
    var c := L.scopes[cid];
    if c.parent.Some? {
      ResolveInUnbound(L, fuel, home, chain, g, c.parent.value, mode, s);
    }
  }

  /** Lookup passes over every container below the nearest one that binds the identity. */
  lemma {:induction false} ResolveInNearest(L: Locator, fuel: nat, home: nat, chain: seq<Frame>, g: Frame,
                                            cid: nat, mode: Mode, s: State)
    requires Valid(L) && home < |L.scopes| && cid < |L.scopes| && g.id !in Ids(Tail(chain))
    requires Find(L, cid, g.id).Some?
    ensures Find(L, cid, g.id).value < |L.scopes|
    ensures ResolveIn(L, fuel, home, chain, g, cid, mode, s)
      == ResolveIn(L, fuel, home, chain, g, Find(L, cid, g.id).value, mode, s)
    decreases cid
  {
    var c := L.scopes[cid];
    if Here(c, g.id).None? {
      ResolveInNearest(L, fuel, home, chain, g, c.parent.value, mode, s);
    }
  }

  /** A top-level request is a lookup from the container with a frame under the root context,
      followed, when it succeeds, by the drain of the root's queue. */
  lemma ResolveTop(L: Locator, h: Heap, fuel: nat, cid: nat, id: Ident, mode: Mode)
    requires Valid(L) && cid < |L.scopes| && id != Root.id
    ensures Ids(Tail([Root])) == {}
    ensures var s := TopState(h, cid);
      var inner := ResolveIn(L, fuel, cid, [Root], Frame(id, None), cid, mode, s);
      ServiceLocator.Resolve(L, h, fuel, cid, id, mode) ==
        if inner.0.Err? then (inner.0, WithRootQueue(inner.1.heap, cid, inner.1.queue))
        else
          var d := Drain(L, fuel, cid, inner.1.queue, 0, inner.1);
          (if d.0.Fail? then Err(d.0.error) else inner.0, WithRootQueue(d.1.heap, cid, d.1.queue))
  {
    assert Ids([Root]) == {Root.id};
    assert Tail([Root]) == [];
  }

  /** A provider call whose lookup succeeds without touching anything, and so queues nothing,
      answers with the lookup's result and leaves the caller's state as it was. */
  lemma ProviderQuiet(L: Locator, fuel: nat, home: nat, id: Ident, mode: Mode, s: State, s0: State, p: Ptr)
    requires Valid(L) && home < |L.scopes| && fuel > 0 && s0 == s.(queue := [])
    requires ResolveIn(L, fuel - 1, home, [], Frame(id, None), home, mode, s0) == (Ok(p), s0)
    ensures ProviderCall(L, fuel, home, id, mode, s) == (Ok(p), s)
  {
    assert Drain(L, fuel - 1, home, [], 0, s0) == (Pass, s0);
  }

  /** The lookup in a container that binds the identity: the accessor, and the parent when it
      yields null. */
  lemma ResolveInBound(L: Locator, fuel: nat, home: nat, chain: seq<Frame>, g: Frame, cid: nat, mode: Mode, s: State, b: Binding)
    requires Valid(L) && home < |L.scopes| && cid < |L.scopes| && g.id !in Ids(Tail(chain))
    requires Here(L.scopes[cid], g.id) == Some(b)
    ensures var acc := Accessor(L, fuel, home, chain, g, Ref(cid, g.id), b, s);
      ResolveIn(L, fuel, home, chain, g, cid, mode, s) ==
        if acc.0.Err? || acc.0.value != Null then (acc.0, acc.2)
        else Fallback(L, fuel, home, chain, acc.1, cid, mode, acc.2)
  {
  }

  /** When the nearest binding is an instance, the lookup answers with it and changes nothing. */
  lemma ResolveInInstance(L: Locator, fuel: nat, home: nat, chain: seq<Frame>, g: Frame, cid: nat, mode: Mode, s: State, v: nat)
    requires Valid(L) && home < |L.scopes| && cid < |L.scopes| && g.id !in Ids(Tail(chain))
    requires Find(L, cid, g.id).Some?
    requires Here(L.scopes[Find(L, cid, g.id).value], g.id) == Some(Instance(Obj(v)))
    ensures ResolveIn(L, fuel, home, chain, g, cid, mode, s) == (Ok(Obj(v)), s)
  {
    var c0 := Find(L, cid, g.id).value;
    ResolveInNearest(L, fuel, home, chain, g, cid, mode, s);
    ResolveInBound(L, fuel, home, chain, g, c0, mode, s, Instance(Obj(v)));
  }

  /** What the nearest binding of `id`, seen from `cid`, answers without running anything: a
      non-null instance, or a singleton whose non-null instance is already cached. */
  function Settled(L: Locator, h: Heap, cid: nat, id: Ident): (r: Option<Ptr>)
    requires Valid(L) && cid < |L.scopes|
    ensures r.Some? ==> r.value != Null && Find(L, cid, id).Some?
  {
    match Find(L, cid, id)
    case None => None
    case Some(c) =>
      match Here(L.scopes[c], id)
      case Some(Instance(p)) => if p != Null then Some(p) else None
      case Some(Singleton(_)) =>
        if Ref(c, id) in h.caches && h.caches[Ref(c, id)] != Null then Some(h.caches[Ref(c, id)]) else None
      case _ => None
  }

  /** When the nearest binding is settled, the lookup answers with its object and changes
      nothing (ServiceLocator.hpp:369-412, 592-612). */
  lemma ResolveInSettled(L: Locator, fuel: nat, home: nat, chain: seq<Frame>, g: Frame, cid: nat, mode: Mode, s: State, p: Ptr)
    requires Valid(L) && home < |L.scopes| && cid < |L.scopes| && g.id !in Ids(Tail(chain))
    requires Settled(L, s.heap, cid, g.id) == Some(p)
    ensures ResolveIn(L, fuel, home, chain, g, cid, mode, s) == (Ok(p), s)
  {
    var c0 := Find(L, cid, g.id).value;
    var b := Here(L.scopes[c0], g.id).value;
    ResolveInNearest(L, fuel, home, chain, g, cid, mode, s);
    ResolveInBound(L, fuel, home, chain, g, c0, mode, s, b);
    assert Accessor(L, fuel, home, chain, g, Ref(c0, g.id), b, s) == (Ok(p), g, s);
  }

  /** An identity bound nowhere on the chain: `resolve` throws UnableToResolve with the path
      `resolve<T>(name)`, nothing is constructed; `tryResolve` yields null
      (tests/ServiceLocatorTests.cpp:217-233 for the unnamed lookup next to named bindings). */
  lemma UnboundResolve(L: Locator, h: Heap, fuel: nat, cid: nat, id: Ident)
    requires Valid(L) && cid < |L.scopes| && id != Root.id
    requires Find(L, cid, id) == None
    ensures ServiceLocator.Resolve(L, h, fuel, cid, id, Must).0 == Err(UnableToResolve(id.t, Segment(Frame(id, None))))
    ensures ServiceLocator.Resolve(L, h, fuel, cid, id, Must).1.caches == h.caches
    ensures ServiceLocator.Resolve(L, h, fuel, cid, id, Must).1.next == h.next
    ensures RootQueue(h, cid) == [] ==> ServiceLocator.Resolve(L, h, fuel, cid, id, Try).0 == Ok(Null)
  {
    var g := Frame(id, None);
    var s := State(h, RootQueue(h, cid));
    assert Ids([Root]) == {Root.id};
    ResolveInUnbound(L, fuel, cid, [Root], g, cid, Must, s);
    ResolveInUnbound(L, fuel, cid, [Root], g, cid, Try, s);
    if RootQueue(h, cid) == [] {
      assert Drain(L, fuel, cid, [], 0, s) == (Pass, s.(queue := []));
      assert ResolveFrom(L, fuel, cid, [Root], id, Try, s) == (Ok(Null), s.(queue := []));
    }
  }

  /** `canResolve` is sound: when it answers yes, the lookup of `resolve` finds a binding
      (ServiceLocator.hpp:627-639). */
  lemma {:induction false} CanResolveSound(L: Locator, cid: nat, id: Ident)
    requires Valid(L) && cid < |L.scopes|
    requires CanResolve(L, cid, id)
    ensures Find(L, cid, id).Some?
    decreases cid
  {
    var c := L.scopes[cid];
    if id.t !in c.tables {
      CanResolveSound(L, c.parent.value, id);
    }
  }

  /** `canResolve` is not complete: a container holding a table for the type but not the name
      answers no, even though its parent binds the identity and `resolve` would find it there
      (ServiceLocator.hpp:638 against 603-609). */
  lemma CanResolveStopsAtTable(L: Locator, cid: nat, p: nat, id: Ident)
    requires Valid(L) && cid < |L.scopes| && L.scopes[cid].parent == Some(p)
    requires id.t in L.scopes[cid].tables && Here(L.scopes[cid], id).None?
    requires Here(L.scopes[p], id).Some?
    ensures !CanResolve(L, cid, id)
    ensures Find(L, cid, id) == Some(p)
  {
    assert p < cid;
  }

  /** `L'` is `L` with one more binding, for `id` in container `c`. */
  ghost predicate AddsBinding(L: Locator, L': Locator, c: nat, id: Ident)
  {
    && |L'.scopes| == |L.scopes| && c < |L.scopes|
    && Here(L.scopes[c], id).None? && Here(L'.scopes[c], id).Some?
    && (forall j :: 0 <= j < |L.scopes| ==> L'.scopes[j].parent == L.scopes[j].parent)
    && (forall j, o :: 0 <= j < |L.scopes| && (j != c || o != id) ==> Here(L'.scopes[j], o) == Here(L.scopes[j], o))
  }

  lemma {:induction false} FindShadow(L: Locator, L': Locator, c: nat, id: Ident, x: nat, other: Ident)
    requires Valid(L) && Valid(L') && AddsBinding(L, L', c, id) && x < |L.scopes|
    ensures Find(L', x, other) ==
      if other == id && c in Ancestors(L, x) && (Find(L, x, id).None? || Find(L, x, id).value < c)
      then Some(c) else Find(L, x, other)
    decreases x
  {
    var cx := L.scopes[x];
    assert L'.scopes[x].parent == cx.parent;
    assert Ancestors(L, x)[0] == x;
    if x == c && other == id {
    } else {
      assert Here(L'.scopes[x], other) == Here(cx, other);
      if Here(cx, other).None? && cx.parent.Some? {
        var q := cx.parent.value;
        FindShadow(L, L', c, id, q, other);
        assert Ancestors(L, x) == [x] + Ancestors(L, q);
        assert Find(L', x, other) == Find(L', q, other);
        assert Find(L, x, other) == Find(L, q, other);
      }
    }
  }

  /** A bind in container `c` changes the lookup of the bound identity exactly in the
      containers below `c` (`c` included) whose old nearest binding lay above `c`, or that had
      none; every other lookup is unchanged (ServiceLocator.hpp:592-612, 688-701). */
  lemma FindAfterBind(L: Locator, c: nat, id: Ident, b: Binding, eager: bool, x: nat, other: Ident)
    requires Valid(L) && c < |L.scopes| && x < |L.scopes|
    requires eager ==> b.Singleton?
    requires Bind(L, c, id, b, eager).Ok?
    ensures var L' := Bind(L, c, id, b, eager).value;
      Find(L', x, other) ==
        if other == id && c in Ancestors(L, x) && (Find(L, x, id).None? || Find(L, x, id).value < c)
        then Some(c) else Find(L, x, other)
  {
    var L' := Bind(L, c, id, b, eager).value;
    assert AddsBinding(L, L', c, id);
    FindShadow(L, L', c, id, x, other);
  }

  /** Adding containers after the existing ones changes no existing lookup. */
  lemma {:induction false} FindExtended(L: Locator, L': Locator, x: nat, id: Ident)
    requires Valid(L) && Valid(L') && x < |L.scopes| <= |L'.scopes|
    requires L'.scopes[..|L.scopes|] == L.scopes
    ensures Find(L', x, id) == Find(L, x, id)
    decreases x
  {
    assert L'.scopes[x] == L.scopes[x];
    if Here(L.scopes[x], id).None? && L.scopes[x].parent.Some? {
      FindExtended(L, L', L.scopes[x].parent.value, id);
    }
  }

  /** A container made by `enter` starts empty and defers every lookup to its parent
      (ServiceLocator.hpp:678-685). */
  lemma EnterInherits(L: Locator, cid: nat, id: Ident)
    requires Valid(L) && cid < |L.scopes|
    ensures var (L', n) := Enter(L, cid);
      Find(L', n, id) == Find(L, cid, id) && CanResolve(L', n, id) == CanResolve(L, cid, id)
  {
    var (L', n) := Enter(L, cid);
    FindExtended(L, L', cid, id);
    CanResolveExtended(L, L', cid, id);
  }

  lemma {:induction false} CanResolveExtended(L: Locator, L': Locator, x: nat, id: Ident)
    requires Valid(L) && Valid(L') && x < |L.scopes| <= |L'.scopes|
    requires L'.scopes[..|L.scopes|] == L.scopes
    ensures CanResolve(L', x, id) == CanResolve(L, x, id)
    decreases x
  {
    assert L'.scopes[x] == L.scopes[x];
    if id.t !in L.scopes[x].tables && L.scopes[x].parent.Some? {
      CanResolveExtended(L, L', L.scopes[x].parent.value, id);
    }
  }
}

=== FILE: resolution.dfy ===
/** The resolution engine: `Context::resolve`/`tryResolve`/`resolveAll`, the provider entry
    points, `ServiceLocator::_resolve`/`_tryResolve`, the binding accessors and the root frame's
    after-resolve queue (ServiceLocator.hpp:126-317, 369-514, 592-658).

    The container tree does not change while a resolve runs, so it is a parameter; what does
    change is threaded through as a `State`. `home` is the container of the root frame, which
    every frame of the tree shares: nested resolves start their lookup there, whichever
    container the running binding came from. */
module Resolution {
  import opened Base
  import opened Bindings
  import opened Frames
  import opened Scopes

  /** What resolution mutates: singleton caches, the counter that numbers new objects, and the
      after-resolve queue of each container's own root context. */
  datatype Heap = Heap(caches: map<Ref, Ptr>, next: nat, roots: map<nat, seq<Callback>>)

  /** The heap and the after-resolve queue of the root frame of the tree being resolved. */
  datatype State = State(heap: Heap, queue: seq<Callback>)

  /** Nothing cached is forgotten or changed, object numbers only grow, and the container root
      queues are left alone. */
  predicate Extends(a: Heap, b: Heap)
  {
    && a.next <= b.next
    && (forall r :: r in a.caches ==> r in b.caches && b.caches[r] == a.caches[r])
    && b.roots == a.roots
  }

  /** Every cached instance belongs to a singleton binding of the tree, and a singleton whose
      factory never yields null never has null cached. */
  predicate Coherent(L: Locator, h: Heap)
  {
    forall r :: r in h.caches ==>
      && r.scope < |L.scopes|
      && Here(L.scopes[r.scope], r.id).Some?
      && Here(L.scopes[r.scope], r.id).value.Singleton?
      && (NeverNull(Here(L.scopes[r.scope], r.id).value.make) ==> h.caches[r] != Null)
  }

  /** `p` is null or an object numbered below `n`, that is, made before the counter reached `n`. */
  predicate Below(p: Ptr, n: nat)
  {
    p.Obj? ==> p.id < n
  }

  /** Every object the program already holds, bound by `toInstance` or cached by a singleton,
      was made before the counter's current value. */
  ghost predicate Numbered(L: Locator, h: Heap)
  {
    && (forall i, id :: 0 <= i < |L.scopes| && Here(L.scopes[i], id).Some? && Here(L.scopes[i], id).value.Instance?
          ==> Below(Here(L.scopes[i], id).value.value, h.next))
    && (forall r :: r in h.caches ==> Below(h.caches[r], h.next))
  }

  /** Making a new object moves the counter on, so everything held stays below it. */
  lemma NumberedNext(L: Locator, h: Heap)
    requires Numbered(L, h)
    ensures Numbered(L, h.(next := h.next + 1))
  {
  }

  /** Termination measure: the identities that can still be pushed on the chain below its root.
      An empty chain (the frame of a provider call is about to become the root) counts one more. */
  ghost function Measure(L: Locator, chain: seq<Frame>): nat
  {
    |Universe(L) - Ids(Tail(chain))| + (if chain == [] then 1 else 0)
  }

  lemma MeasureDrops(L: Locator, chain: seq<Frame>, g: Frame)
    requires g.id in Universe(L) && g.id !in Ids(Tail(chain))
    ensures Measure(L, chain + [g]) < Measure(L, chain)
  {
    IdsSnoc(chain, g);
    if chain != [] {
      DifferenceShrinks(Universe(L), Ids(Tail(chain)), g.id);
    }
  }

  lemma DifferenceShrinks<X>(U: set<X>, S: set<X>, x: X)
    requires x in U && x !in S
    ensures |U - (S + {x})| < |U - S|
  {
    assert U - (S + {x}) == (U - S) - {x};
  }

  lemma MeasureRetag(L: Locator, chain: seq<Frame>, g: Frame, g1: Frame)
    requires g.id == g1.id
    ensures Measure(L, chain + [g1]) == Measure(L, chain + [g])
  {
    IdsSnoc(chain, g);
    IdsSnoc(chain, g1);
  }

  /** `Context::resolve<T>(name)` (`mode == Must`) and `tryResolve` (`mode == Try`) called on the
      last frame of `chain`: a new child frame, the cycle check against the caller and all its
      ancestors, the container lookup, and the after-resolve drain when the caller is the root
      (ServiceLocator.hpp:126-133, 204-264). */
  function ResolveFrom(L: Locator, fuel: nat, home: nat, chain: seq<Frame>, id: Ident, mode: Mode, s: State)
    : (out: (Result<Ptr>, State))
    requires Valid(L) && home < |L.scopes| && |chain| > 0
    ensures Extends(s.heap, out.1.heap)
    ensures Coherent(L, s.heap) ==> Coherent(L, out.1.heap)
    ensures id in Ids(chain) ==> out == (Err(RecursiveResolve(Path(chain + [Frame(id, None)]))), s)
    ensures mode == Must && out.0.Ok? ==> out.0.value != Null
    ensures |chain| > 1 ==> s.queue <= out.1.queue
    ensures |chain| == 1 && out.0.Ok? ==> out.1.queue == []
    ensures out.0.Err? ==> s.queue <= out.1.queue
    ensures Numbered(L, s.heap) ==> Numbered(L, out.1.heap) && (out.0.Ok? ==> Below(out.0.value, out.1.heap.next))
    decreases fuel, Measure(L, chain), 3, 0
  {
    var g := Frame(id, None);
    if id in Ids(chain) then (Err(RecursiveResolve(Path(chain + [g]))), s)
    else
      TailIds(chain);
      var (r, s1) := ResolveIn(L, fuel, home, chain, g, home, mode, s);
      if r.Err? || |chain| > 1 then (r, s1)
      else
        var (o, s2) := Drain(L, fuel, home, s1.queue, 0, s1);
        (if o.Fail? then Err(o.error) else r, s2)
  }

  /** `_resolve` / `_tryResolve` at container `cid`: this container's table first; a missing
      binding or a null result falls back to the parent with the SAME frame `g`; with no parent
      left, `resolve` throws UnableToResolve and `tryResolve` yields null
      (ServiceLocator.hpp:592-612, 642-658). */
  function ResolveIn(L: Locator, fuel: nat, home: nat, chain: seq<Frame>, g: Frame, cid: nat, mode: Mode, s: State)
    : (out: (Result<Ptr>, State))
    requires Valid(L) && home < |L.scopes| && cid < |L.scopes|
    requires g.id !in Ids(Tail(chain))
    ensures Extends(s.heap, out.1.heap)
    ensures Coherent(L, s.heap) ==> Coherent(L, out.1.heap)
    ensures mode == Must && out.0.Ok? ==> out.0.value != Null
    ensures |chain| > 0 ==> s.queue <= out.1.queue
    ensures Numbered(L, s.heap) ==> Numbered(L, out.1.heap) && (out.0.Ok? ==> Below(out.0.value, out.1.heap.next))
    decreases fuel, Measure(L, chain), 1, 2 * cid + 1
  {
    match Here(L.scopes[cid], g.id)
    case Some(b) =>
      BoundInUniverse(L, cid, g.id);
      MeasureDrops(L, chain, g);
      var (r, g1, s1) := Accessor(L, fuel, home, chain, g, Ref(cid, g.id), b, s);
      if r.Err? || r.value != Null then (r, s1)
      else Fallback(L, fuel, home, chain, g1, cid, mode, s1)
    case None => Fallback(L, fuel, home, chain, g, cid, mode, s)
  }

  /** The `_parent == nullptr` branches of `_resolve` and `_tryResolve`. */
  function Fallback(L: Locator, fuel: nat, home: nat, chain: seq<Frame>, g: Frame, cid: nat, mode: Mode, s: State)
    : (out: (Result<Ptr>, State))
    requires Valid(L) && home < |L.scopes| && cid < |L.scopes|
    requires g.id !in Ids(Tail(chain))
    ensures Extends(s.heap, out.1.heap)
    ensures Coherent(L, s.heap) ==> Coherent(L, out.1.heap)
    ensures mode == Must && out.0.Ok? ==> out.0.value != Null
    ensures |chain| > 0 ==> s.queue <= out.1.queue
    ensures Numbered(L, s.heap) ==> Numbered(L, out.1.heap) && (out.0.Ok? ==> Below(out.0.value, out.1.heap.next))
    decreases fuel, Measure(L, chain), 1, 2 * cid
  {
    var c := L.scopes[cid];
    if c.parent.None? then
      (if mode == Must then Err(UnableToResolve(g.id.t, Path(chain + [g]))) else Ok(Null), s)
    else ResolveIn(L, fuel, home, chain, g, c.parent.value, mode, s)
  }

  /** A binding's accessor `_fnGet`, called with frame `g`. An instance binding returns its value;
      a transient one runs its factory; a singleton returns its cached instance, or runs its
      factory and caches the result once the factory has returned (ServiceLocator.hpp:369-412).
      The frame comes back with the tag the factory may have written. */
  function Accessor(L: Locator, fuel: nat, home: nat, chain: seq<Frame>, g: Frame, ref: Ref, b: Binding, s: State)
    : (out: (Result<Ptr>, Frame, State))
    requires Valid(L) && home < |L.scopes|
    requires ref.scope < |L.scopes| && Here(L.scopes[ref.scope], ref.id) == Some(b)
    ensures Extends(s.heap, out.2.heap)
    ensures Coherent(L, s.heap) ==> Coherent(L, out.2.heap)
    ensures out.1.id == g.id
    ensures |chain| > 0 ==> s.queue <= out.2.queue
    ensures b.Transient? && NeverNull(b.make) && out.0.Ok? ==> out.0.value != Null
    ensures b.Singleton? && NeverNull(b.make) && Coherent(L, s.heap) && out.0.Ok? ==> out.0.value != Null
    ensures b.Instance? ==> out == (Ok(b.value), g, s)
    ensures b.Singleton? && ref in s.heap.caches ==> out == (Ok(s.heap.caches[ref]), g, s)
    ensures b.Singleton? && out.0.Ok? ==> ref in out.2.heap.caches && out.2.heap.caches[ref] == out.0.value
    ensures Numbered(L, s.heap) ==> Numbered(L, out.2.heap) && (out.0.Ok? ==> Below(out.0.value, out.2.heap.next))
    decreases fuel, Measure(L, chain + [g]), 6, 0
  {
    match b
    case Instance(v) => (Ok(v), g, s)
    case Transient(f) => RunFactory(L, fuel, home, chain, g, f, s)
    case Singleton(f) =>
      if ref in s.heap.caches then (Ok(s.heap.caches[ref]), g, s)
      else
        var (r, g1, s1) := RunFactory(L, fuel, home, chain, g, f, s);
        if r.Err? then (r, g1, s1)
        else (r, g1, s1.(heap := s1.heap.(caches := s1.heap.caches[ref := r.value])))
  }

  /** `_fnCreate` called with frame `g`. A constructing factory first tags the frame with its
      implementation type (throwing BindingIssue if the frame is already tagged), then makes its
      requests from a child position of `g`, then yields a new object; an alias resolves its
      target from `g` (ServiceLocator.hpp:414-490). */
  function RunFactory(L: Locator, fuel: nat, home: nat, chain: seq<Frame>, g: Frame, f: Factory, s: State)
    : (out: (Result<Ptr>, Frame, State))
    requires Valid(L) && home < |L.scopes|
    ensures Extends(s.heap, out.2.heap)
    ensures Coherent(L, s.heap) ==> Coherent(L, out.2.heap)
    ensures out.1.id == g.id
    ensures |chain| > 0 ==> s.queue <= out.2.queue
    ensures f.Construct? && g.tag.Some? ==> out == (Err(BindingIssue), g, s)
    ensures f.Construct? && out.0.Ok? && out.0.value.Obj? ==>
      s.heap.next <= out.0.value.id < out.2.heap.next
    ensures NeverNull(f) && out.0.Ok? ==> out.0.value != Null
    ensures Numbered(L, s.heap) ==> Numbered(L, out.2.heap) && (out.0.Ok? ==> Below(out.0.value, out.2.heap.next))
    decreases fuel, Measure(L, chain + [g]), 5, 0
  {
    match f
    case Construct(impl, steps, yieldsNull) =>
      (match SetConcreteType(g, impl)
       case Err(e) => (Err(e), g, s)
       case Ok(g1) =>
         MeasureRetag(L, chain, g, g1);
         var (o, s1) := RunSteps(L, fuel, home, chain + [g1], steps, 0, s);
         if o.Fail? then (Err(o.error), g1, s1)
         else if yieldsNull then (Ok(Null), g1, s1)
         else
           var s2 := s1.(heap := s1.heap.(next := s1.heap.next + 1));
           assert Numbered(L, s1.heap) ==> Numbered(L, s2.heap) by {
             if Numbered(L, s1.heap) { NumberedNext(L, s1.heap); }
           }
           (Ok(Obj(s1.heap.next)), g1, s2))
    case Alias(target) =>
      var (r, s1) := ResolveFrom(L, fuel, home, chain + [g], AliasOf(target, g.id), Must, s);
      (r, g, s1)
  }

  /** The requests of a factory or callback, made in order from the last frame of `chain`; the
      first exception ends them. */
  function RunSteps(L: Locator, fuel: nat, home: nat, chain: seq<Frame>, steps: seq<Step>, i: nat, s: State)
    : (out: (Outcome, State))
    requires Valid(L) && home < |L.scopes| && |chain| > 0 && i <= |steps|
    ensures Extends(s.heap, out.1.heap)
    ensures Coherent(L, s.heap) ==> Coherent(L, out.1.heap)
    ensures |chain| > 1 ==> s.queue <= out.1.queue
    ensures Numbered(L, s.heap) ==> Numbered(L, out.1.heap)
    decreases fuel, Measure(L, chain), 4, |steps| - i
  {
    if i == |steps| then (Pass, s)
    else
      var (o, s1) := Perform(L, fuel, home, chain, steps[i], s);
      if o.Fail? then (o, s1) else RunSteps(L, fuel, home, chain, steps, i + 1, s1)
  }

  /** One request made from the last frame of `chain`. `afterResolve(fn)` appends to the ROOT
      frame's queue, however deep the caller is (ServiceLocator.hpp:312-317). */
  function Perform(L: Locator, fuel: nat, home: nat, chain: seq<Frame>, step: Step, s: State)
    : (out: (Outcome, State))
    requires Valid(L) && home < |L.scopes| && |chain| > 0
    ensures Extends(s.heap, out.1.heap)
    ensures Coherent(L, s.heap) ==> Coherent(L, out.1.heap)
    ensures |chain| > 1 ==> s.queue <= out.1.queue
    ensures step.AfterResolve? ==> out == (Pass, s.(queue := s.queue + [step.cb]))
    ensures Numbered(L, s.heap) ==> Numbered(L, out.1.heap)
    decreases fuel, Measure(L, chain), 4, 0
  {
    match step
    case Resolve(id) =>
      var (r, s1) := ResolveFrom(L, fuel, home, chain, id, Must, s);
      (ToOutcome(r), s1)
    case TryResolve(id) =>
      var (r, s1) := ResolveFrom(L, fuel, home, chain, id, Try, s);
      (ToOutcome(r), s1)
    case ResolveAll(t) =>
      var (r, s1) := ResolveAllFrom(L, fuel, home, chain, t, s);
      (ToOutcome(r), s1)
    case AfterResolve(cb) => (Pass, s.(queue := s.queue + [cb]))
    case Provide(id, mode) =>
      var (r, s1) := ProviderCall(L, fuel, home, id, mode, s);
      (ToOutcome(r), s1)
  }

  /** `Context::resolveAll<T>`: every binding `_visitAll` meets, each through its own child frame
      named `""` and its own cycle check, its accessor called directly (so null results are
      kept); then the drain when the caller is the root (ServiceLocator.hpp:222-230). */
  function ResolveAllFrom(L: Locator, fuel: nat, home: nat, chain: seq<Frame>, t: string, s: State)
    : (out: (Result<seq<Ptr>>, State))
    requires Valid(L) && home < |L.scopes| && |chain| > 0
    ensures Extends(s.heap, out.1.heap)
    ensures Coherent(L, s.heap) ==> Coherent(L, out.1.heap)
    ensures |chain| > 1 ==> s.queue <= out.1.queue
    ensures |chain| == 1 && out.0.Ok? ==> out.1.queue == []
    ensures out.0.Err? ==> s.queue <= out.1.queue
    ensures out.0.Ok? ==> |out.0.value| == |VisitAll(L, home, t)|
    ensures VisitAll(L, home, t) != [] && Ident(t, "") in Ids(chain) ==>
      out == (Err(RecursiveResolve(Path(chain + [Frame(Ident(t, ""), None)]))), s)
    ensures Numbered(L, s.heap) ==> Numbered(L, out.1.heap)
    decreases fuel, Measure(L, chain), 3, 0
  {
    var visits := VisitAll(L, home, t);
    assert VisitsOf(L, t, visits);
    var (r, s1) := ResolveEach(L, fuel, home, chain, t, visits, 0, [], s);
    if r.Err? || |chain| > 1 then (r, s1)
    else
      var (o, s2) := Drain(L, fuel, home, s1.queue, 0, s1);
      (if o.Fail? then Err(o.error) else r, s2)
  }

  /** Each visit names a binding of type `t` that its container's table really holds. */
  predicate VisitsOf(L: Locator, t: string, visits: seq<Visit>)
  {
    forall k :: 0 <= k < |visits| ==>
      && visits[k].ref.scope < |L.scopes|
      && t in L.scopes[visits[k].ref.scope].tables
      && Here(L.scopes[visits[k].ref.scope], visits[k].ref.id) == Some(visits[k].binding)
  }

  function ResolveEach(L: Locator, fuel: nat, home: nat, chain: seq<Frame>, t: string,
                       visits: seq<Visit>, i: nat, acc: seq<Ptr>, s: State)
    : (out: (Result<seq<Ptr>>, State))
    requires Valid(L) && home < |L.scopes| && |chain| > 0 && i <= |visits|
    requires VisitsOf(L, t, visits)
    ensures Extends(s.heap, out.1.heap)
    ensures Coherent(L, s.heap) ==> Coherent(L, out.1.heap)
    ensures s.queue <= out.1.queue
    ensures out.0.Ok? ==> |out.0.value| == |acc| + |visits| - i
    ensures i < |visits| && Ident(t, "") in Ids(chain) ==>
      out == (Err(RecursiveResolve(Path(chain + [Frame(Ident(t, ""), None)]))), s)
    ensures Numbered(L, s.heap) ==> Numbered(L, out.1.heap)
    decreases fuel, Measure(L, chain), 2, |visits| - i
  {
    if i == |visits| then (Ok(acc), s)
    else
      var g := Frame(Ident(t, ""), None);
      if g.id in Ids(chain) then (Err(RecursiveResolve(Path(chain + [g]))), s)
      else
        TailIds(chain);
        var v := visits[i];
        assert v.ref.scope < |L.scopes| && t in L.scopes[v.ref.scope].tables;
        TypeInUniverse(L, v.ref.scope, t);
        MeasureDrops(L, chain, g);
        var (r, _, s1) := Accessor(L, fuel, home, chain, g, v.ref, v.binding, s);
        if r.Err? then (Err(r.error), s1)
        else ResolveEach(L, fuel, home, chain, t, visits, i + 1, acc + [r.value], s1)
  }

  /** A call of the function `provider<T>()` / `tryProvider<T>()` returned: a fresh root frame
      for the requested identity, no cycle check against anything, lookup from the captured
      container, and the drain of that fresh root's own queue (ServiceLocator.hpp:266-294).
      The caller's queue is not touched. */
  function ProviderCall(L: Locator, fuel: nat, home: nat, id: Ident, mode: Mode, s: State)
    : (out: (Result<Ptr>, State))
    requires Valid(L) && home < |L.scopes|
    ensures Extends(s.heap, out.1.heap)
    ensures Coherent(L, s.heap) ==> Coherent(L, out.1.heap)
    ensures out.1.queue == s.queue
    ensures mode == Must && out.0.Ok? ==> out.0.value != Null
    ensures Numbered(L, s.heap) ==> Numbered(L, out.1.heap)
    decreases fuel, 0, 0, 0
  {
    if fuel == 0 then (Err(Exhausted), s)
    else
      var root := Frame(id, None);
      var (r, s1) := ResolveIn(L, fuel - 1, home, [], root, home, mode, s.(queue := []));
      if r.Err? then (r, s1.(queue := s.queue))
      else
        var (o, s2) := Drain(L, fuel - 1, home, s1.queue, 0, s1);
        (if o.Fail? then Err(o.error) else r, s2.(queue := s.queue))
  }

  /** `Context::afterResolve()` on a root frame whose queue is `cbs` (equal to `s.queue`): each
      callback, from position `i` on, gets a brand-new root context of the same container and
      runs to completion; the list is discarded only after the loop, so if a callback throws the
      whole list stays queued (ServiceLocator.hpp:135-146). */
  function Drain(L: Locator, fuel: nat, home: nat, cbs: seq<Callback>, i: nat, s: State)
    : (out: (Outcome, State))
    requires Valid(L) && home < |L.scopes| && i <= |cbs|
    ensures Extends(s.heap, out.1.heap)
    ensures Coherent(L, s.heap) ==> Coherent(L, out.1.heap)
    ensures out.0.Pass? ==> out.1.queue == []
    ensures out.0.Fail? ==> out.1.queue == s.queue
    ensures Numbered(L, s.heap) ==> Numbered(L, out.1.heap)
    decreases fuel, 0, 0, |cbs| - i
  {
    if i == |cbs| then (Pass, s.(queue := []))
    else
      var (o, s1) := RunCallback(L, fuel, home, cbs[i], s);
      if o.Fail? then (o, s1) else Drain(L, fuel, home, cbs, i + 1, s1)
  }

  /** One deferred callback, run from a fresh root frame with its own, initially empty queue;
      whatever it leaves in that queue is dropped with the context. */
  function RunCallback(L: Locator, fuel: nat, home: nat, cb: Callback, s: State)
    : (out: (Outcome, State))
    requires Valid(L) && home < |L.scopes|
    ensures Extends(s.heap, out.1.heap)
    ensures Coherent(L, s.heap) ==> Coherent(L, out.1.heap)
    ensures out.1.queue == s.queue
    ensures Numbered(L, s.heap) ==> Numbered(L, out.1.heap)
    decreases fuel, 0, 0, 0
  {
    if fuel == 0 then (Fail(Exhausted), s)
    else
      var (o, s1) := RunSteps(L, fuel - 1, home, [Root], cb.steps, 0, s.(queue := []));
      (o, s1.(queue := s.queue))
  }
}

=== FILE: scenarios.dfy ===
/** Whole-program behaviours: container nesting and eager binding, each through the top-level
    operations (ServiceLocator.hpp:661-711). */
module Scenarios {
  import opened Base
  import opened Bindings
  import opened Frames
  import opened SortedTable
  import opened Scopes
  import opened Resolution
  import opened ServiceLocator
  import opened Properties
  import opened Lifecycle

  /** A child container may bind an identity its parent already binds: the bind succeeds, the
      child then answers with its own binding, and a sibling still answers with the parent's
      (tests/ServiceLocatorTests.cpp:264-281; ServiceLocator.hpp:520-535, 592-612). */
  lemma NestedOverride(L: Locator, h: Heap, fuel: nat, p: nat, c1: nat, c2: nat, id: Ident, mode: Mode, va: nat, vb: nat)
    requires Valid(L) && c1 < |L.scopes| && c2 < |L.scopes| && c1 != c2 && id != Root.id
    requires L.scopes[c1].parent == Some(p) && L.scopes[c2].parent == Some(p)
    requires Here(L.scopes[p], id) == Some(Instance(Obj(va)))
    requires Here(L.scopes[c1], id).None? && Here(L.scopes[c2], id).None?
    requires RootQueue(h, c1) == [] && RootQueue(h, c2) == []
    ensures Bind(L, c1, id, Instance(Obj(vb)), false).Ok?
    ensures var L' := Bind(L, c1, id, Instance(Obj(vb)), false).value;
      && ServiceLocator.Resolve(L', h, fuel, c1, id, mode) == (Ok(Obj(vb)), WithRootQueue(h, c1, []))
      && ServiceLocator.Resolve(L', h, fuel, c2, id, mode) == (Ok(Obj(va)), WithRootQueue(h, c2, []))
  {
    assert id.name !in Names(TableOf(L.scopes[c1], id.t));
    var L' := Bind(L, c1, id, Instance(Obj(vb)), false).value;
    assert p < c1 && p < c2;
    assert Find(L, p, id) == Some(p);
    assert Find(L, c1, id) == Find(L, p, id) && Find(L, c2, id) == Find(L, p, id);
    assert Ancestors(L, c1)[0] == c1;
    FindAfterBind(L, c1, id, Instance(Obj(vb)), false, c1, id);
    InstanceResolve(L', h, fuel, c1, id, mode, vb);
    assert Ancestors(L, c2) == [c2] + Ancestors(L, p);
    FindAfterBind(L, c1, id, Instance(Obj(vb)), false, c2, id);
    assert L'.scopes[p] == L.scopes[p];
    InstanceResolve(L', h, fuel, c2, id, mode, va);
  }

  /** An eager singleton is built by `getContext`, and a later request from the container gets
      that very instance without building another (tests/ServiceLocatorTests.cpp:319-329;
      ServiceLocator.hpp:355-357, 511-514, 703-711). */
  lemma EagerThenCached(L: Locator, h: Heap, fuel: nat, fuel2: nat, cid: nat, k: nat, mode: Mode, f: Factory)
    requires Valid(L) && cid < |L.scopes| && Coherent(L, h)
    requires k < |L.scopes[cid].pending| && L.scopes[cid].pending[k] != Root.id
    requires Here(L.scopes[cid], L.scopes[cid].pending[k]) == Some(Singleton(f)) && NeverNull(f)
    requires GetContext(L, h, fuel, cid).0.Pass?
    requires RootQueue(GetContext(L, h, fuel, cid).2, cid) == []
    ensures var (_, L', h') := GetContext(L, h, fuel, cid);
      var id := L.scopes[cid].pending[k];
      && Ref(cid, id) in h'.caches
      && ServiceLocator.Resolve(L', h', fuel2, cid, id, mode) == (Ok(h'.caches[Ref(cid, id)]), h')
  {
    var (_, L', h') := GetContext(L, h, fuel, cid);
    var id := L.scopes[cid].pending[k];
    assert PendingDone(L, h', cid, id);
    assert L'.scopes[cid].tables == L.scopes[cid].tables;
    assert Here(L'.scopes[cid], id) == Some(Singleton(f));
    assert Find(L', cid, id) == Some(cid);
    assert Coherent(L, h');
    assert h'.caches[Ref(cid, id)] != Null;
    assert cid in h'.roots;
    SingletonCached(L', h', fuel2, cid, id, mode, f);
  }

  /** A binding `resolveAll` can answer without any nested request: an instance, a singleton
      already cached, or a transient whose constructor makes no requests. */
  predicate Plain(v: Visit, caches: map<Ref, Ptr>)
  {
    match v.binding
    case Instance(_) => true
    case Singleton(_) => v.ref in caches
    case Transient(f) => f.Construct? && f.steps == []
  }

  predicate AllPlain(visits: seq<Visit>, caches: map<Ref, Ptr>)
  {
    forall k :: 0 <= k < |visits| ==> Plain(visits[k], caches)
  }

  /** The answer to one plain visit when the counter stands at `next`, and the counter after it. */
  function PlainAnswer(v: Visit, caches: map<Ref, Ptr>, next: nat): (r: (Ptr, nat))
    requires Plain(v, caches)
    ensures next <= r.1 <= next + 1
  {
    match v.binding
    case Instance(p) => (p, next)
    case Singleton(_) => (caches[v.ref], next)
    case Transient(f) => if f.yieldsNull then (Null, next) else (Obj(next), next + 1)
  }

  /** Reference semantics of `resolveAll` over plain visits: the answers in visit order, each
      constructing transient numbered after the previous one, and the final counter. */
  function Expected(visits: seq<Visit>, caches: map<Ref, Ptr>, next: nat): (r: (seq<Ptr>, nat))
    requires AllPlain(visits, caches)
    ensures |r.0| == |visits| && next <= r.1
    decreases |visits|
  {
    if visits == [] then ([], next)
    else
      var (p, n1) := PlainAnswer(visits[0], caches, next);
      var (rest, n2) := Expected(visits[1..], caches, n1);
      ([p] + rest, n2)
  }

  lemma AppendAssoc<X>(a: seq<X>, b: seq<X>, c: seq<X>)
    ensures (a + b) + c == a + (b + c)
  {
  }

  lemma ExpectedFrom(visits: seq<Visit>, caches: map<Ref, Ptr>, next: nat, i: nat)
    requires AllPlain(visits, caches) && i < |visits|
    ensures AllPlain(visits[i..], caches) && AllPlain(visits[i + 1..], caches)
    ensures var (p, n1) := PlainAnswer(visits[i], caches, next);
      Expected(visits[i..], caches, next)
        == ([p] + Expected(visits[i + 1..], caches, n1).0, Expected(visits[i + 1..], caches, n1).1)
  {
    assert visits[i..][1..] == visits[i + 1..];
    assert visits[i..][0] == visits[i];
  }

  /** One plain visit of `resolveAll`: its answer is appended and only the counter moves. */
  lemma ResolveEachPlainStep(L: Locator, fuel: nat, home: nat, chain: seq<Frame>, t: string,
                             visits: seq<Visit>, i: nat, acc: seq<Ptr>, s: State)
    requires Valid(L) && home < |L.scopes| && |chain| > 0 && i < |visits|
    requires VisitsOf(L, t, visits) && Plain(visits[i], s.heap.caches)
    requires Ident(t, "") !in Ids(chain)
    ensures var (p, n1) := PlainAnswer(visits[i], s.heap.caches, s.heap.next);
      ResolveEach(L, fuel, home, chain, t, visits, i, acc, s)
        == ResolveEach(L, fuel, home, chain, t, visits, i + 1, acc + [p], s.(heap := s.heap.(next := n1)))
  {
    var v := visits[i];
    var g := Frame(Ident(t, ""), None);
    var (p, n1) := PlainAnswer(v, s.heap.caches, s.heap.next);
    if v.binding.Transient? {
      var f := v.binding.make;
      var g1 := Frame(g.id, Some(f.impl));
      assert RunSteps(L, fuel, home, chain + [g1], f.steps, 0, s) == (Pass, s);
      assert RunFactory(L, fuel, home, chain, g, f, s) == (Ok(p), g1, s.(heap := s.heap.(next := n1)));
    }
    assert Accessor(L, fuel, home, chain, g, v.ref, v.binding, s).0 == Ok(p);
    assert Accessor(L, fuel, home, chain, g, v.ref, v.binding, s).2 == s.(heap := s.heap.(next := n1));
  }

  lemma {:induction false} ResolveEachPlain(L: Locator, fuel: nat, home: nat, chain: seq<Frame>, t: string,
                                            visits: seq<Visit>, i: nat, acc: seq<Ptr>, s: State)
    requires Valid(L) && home < |L.scopes| && |chain| > 0 && i <= |visits|
    requires VisitsOf(L, t, visits) && AllPlain(visits, s.heap.caches)
    requires Ident(t, "") !in Ids(chain)
    ensures AllPlain(visits[i..], s.heap.caches)
    ensures var e := Expected(visits[i..], s.heap.caches, s.heap.next);
      ResolveEach(L, fuel, home, chain, t, visits, i, acc, s) == (Ok(acc + e.0), s.(heap := s.heap.(next := e.1)))
    decreases |visits| - i
  {
    if i < |visits| {
      var (p, n1) := PlainAnswer(visits[i], s.heap.caches, s.heap.next);
      var s1 := s.(heap := s.heap.(next := n1));
      ResolveEachPlainStep(L, fuel, home, chain, t, visits, i, acc, s);
      ResolveEachPlain(L, fuel, home, chain, t, visits, i + 1, acc + [p], s1);
      ExpectedFrom(visits, s.heap.caches, s.heap.next, i);
      var rest := Expected(visits[i + 1..], s.heap.caches, n1);
      AppendAssoc(acc, [p], rest.0);
    } else {
      assert visits[i..] == [];
      assert acc + [] == acc;
    }
  }

  /** `resolveAll` over instances, cached singletons and transients whose constructors make no
      requests answers each binding in `_visitAll` order, this container's bindings of the type
      by name, then each ancestor's, shadowed ones included: an instance with itself, a
      singleton with its cached object, a transient with a new object numbered after the
      previous one. Nothing but the counter changes (tests/ServiceLocatorTests.cpp:307-317;
      ServiceLocator.hpp:222-230, 615-625). */
  lemma ResolveAllPlain(L: Locator, h: Heap, fuel: nat, cid: nat, t: string)
    requires Valid(L) && cid < |L.scopes| && Ident(t, "") != Root.id
    requires AllPlain(VisitAll(L, cid, t), h.caches)
    requires RootQueue(h, cid) == []
    ensures var e := Expected(VisitAll(L, cid, t), h.caches, h.next);
      ServiceLocator.ResolveAll(L, h, fuel, cid, t) == (Ok(e.0), WithRootQueue(h.(next := e.1), cid, []))
  {
    var visits := VisitAll(L, cid, t);
    var s := TopState(h, cid);
    var e := Expected(visits, h.caches, h.next);
    var s1 := s.(heap := h.(next := e.1));
    assert VisitsOf(L, t, visits);
    assert Ids([Root]) == {Root.id};
    ResolveEachPlain(L, fuel, cid, [Root], t, visits, 0, [], s);
    assert visits[0..] == visits && [] + e.0 == e.0;
    assert ResolveEach(L, fuel, cid, [Root], t, visits, 0, [], s) == (Ok(e.0), s1);
    assert Drain(L, fuel, cid, [], 0, s1) == (Pass, s1.(queue := []));
    assert ResolveAllFrom(L, fuel, cid, [Root], t, s) == (Ok(e.0), s1.(queue := []));
  }
}

=== FILE: scopes.dfy ===
/** The container tree of `ServiceLocator`: per-type binding tables, the parent link and the
    pending eager list (ServiceLocator.hpp:517-711). Containers are numbered in creation order,
    so a parent always has a smaller number than its children. */
module Scopes {
  import opened Base
  import opened Bindings
  import opened SortedTable
  import Lexical

  type Table = seq<Entry<Binding>>

  /** One `ServiceLocator`: `_parent`, `_typed_locators` (type name to binding table) and
      `_eagerBindings`, whose entries name bindings of this container's own tables. */
  datatype Container = Container(parent: Option<nat>, tables: map<string, Table>, pending: seq<Ident>)

  datatype Locator = Locator(scopes: seq<Container>)

  /** A binding's identity: the container whose table holds it and the identity it is bound
      under. Bindings are never removed or replaced, so this names one binding for good. */
  datatype Ref = Ref(scope: nat, id: Ident)

  /** One binding met by `_visitAll`. */
  datatype Visit = Visit(ref: Ref, binding: Binding)

  predicate Valid(L: Locator)
  {
    forall i :: 0 <= i < |L.scopes| ==> WellFormed(L.scopes[i], i)
  }

  predicate WellFormed(c: Container, i: nat)
  {
    && (c.parent.Some? ==> c.parent.value < i)
    && (forall t :: t in c.tables ==> Sorted(c.tables[t]))
  }

  /** `ServiceLocator::create`: a new container without a parent. */
  function Create(L: Locator): (r: (Locator, nat))
    requires Valid(L)
    ensures Valid(r.0)
    ensures |r.0.scopes| == |L.scopes| + 1
    ensures r.1 == |L.scopes| && r.0.scopes[..r.1] == L.scopes
    ensures r.0.scopes[r.1].parent == None
    ensures r.0.scopes[r.1].tables == map[] && r.0.scopes[r.1].pending == []
  {
    (Locator(L.scopes + [Container(None, map[], [])]), |L.scopes|)
  }

  /** `enter`: a new, empty container whose parent is `cid` (ServiceLocator.hpp:680-685). */
  function Enter(L: Locator, cid: nat): (r: (Locator, nat))
    requires Valid(L) && cid < |L.scopes|
    ensures Valid(r.0)
    ensures |r.0.scopes| == |L.scopes| + 1
    ensures r.1 == |L.scopes| && r.0.scopes[..r.1] == L.scopes
    ensures r.0.scopes[r.1].parent == Some(cid)
    ensures r.0.scopes[r.1].tables == map[] && r.0.scopes[r.1].pending == []
  {
    (Locator(L.scopes + [Container(Some(cid), map[], [])]), |L.scopes|)
  }

  /** `TypedServiceLocator::tryResolve`'s lookup: this container only, never its parent. */
  function Here(c: Container, id: Ident): Option<Binding>
  {
    if id.t in c.tables then Get(c.tables[id.t], id.name) else None
  }

  function TableOf(c: Container, t: string): Table
  {
    if t in c.tables then c.tables[t] else []
  }

  /** `bind<T>(name)` followed by builder clauses that leave `b` as the binding's accessor, and
      by `eagerly()` when `eager` holds; `eagerly()` is only reachable from `asSingleton()`.
      Only this container's own table is consulted for a duplicate (ServiceLocator.hpp:520-535,
      688-701, 355-357). */
  function Bind(L: Locator, cid: nat, id: Ident, b: Binding, eager: bool): (r: Result<Locator>)
    requires Valid(L) && cid < |L.scopes|
    requires eager ==> b.Singleton?
    ensures r.Err? <==> id.name in Names(TableOf(L.scopes[cid], id.t))
    ensures r.Err? ==> r.error == DuplicateBinding(id.t, id.name)
    ensures r.Ok? ==> Valid(r.value) && |r.value.scopes| == |L.scopes|
    ensures r.Ok? ==> forall j :: 0 <= j < |L.scopes| && j != cid ==> r.value.scopes[j] == L.scopes[j]
    ensures r.Ok? ==> Here(r.value.scopes[cid], id) == Some(b)
    ensures r.Ok? ==> forall other :: other != id ==>
      Here(r.value.scopes[cid], other) == Here(L.scopes[cid], other)
    ensures r.Ok? ==> |TableOf(r.value.scopes[cid], id.t)| == |TableOf(L.scopes[cid], id.t)| + 1
    ensures r.Ok? ==> r.value.scopes[cid].tables.Keys == L.scopes[cid].tables.Keys + {id.t}
    ensures r.Ok? ==> r.value.scopes[cid].parent == L.scopes[cid].parent
    ensures r.Ok? ==> r.value.scopes[cid].pending == L.scopes[cid].pending + (if eager then [id] else [])
  {
    var c := L.scopes[cid];
    var table := TableOf(c, id.t);
    if id.name in Names(table) then Err(DuplicateBinding(id.t, id.name))
    else
      var c' := Container(c.parent, c.tables[id.t := Insert(table, id.name, b)],
                          c.pending + (if eager then [id] else []));
      var L' := Locator(L.scopes[cid := c']);
      assert WellFormed(c', cid);
      assert Here(c', id) == Some(b) by {
        GetAfterInsert(table, id.name, b, id.name);
      }
      assert forall other :: other != id ==> Here(c', other) == Here(c, other) by {
        forall other | other != id
          ensures Here(c', other) == Here(c, other)
        {
          if other.t == id.t {
            GetAfterInsert(table, id.name, b, other.name);
          }
        }
      }
      Ok(L')
  }

  /** The container followed by its ancestors, nearest first. */
  function Ancestors(L: Locator, cid: nat): (a: seq<nat>)
    requires Valid(L) && cid < |L.scopes|
    ensures |a| > 0 && a[0] == cid
    ensures forall k :: 0 <= k < |a| ==> a[k] <= cid
    ensures forall i, j :: 0 <= i < j < |a| ==> a[i] > a[j]
    decreases cid
  {
    var c := L.scopes[cid];
    if c.parent.None? then [cid] else [cid] + Ancestors(L, c.parent.value)
  }

  /** The nearest container on the parent chain of `cid` whose own table binds `id`: the
      container `_resolve` delegates to, absent null results. */
  function Find(L: Locator, cid: nat, id: Ident): (r: Option<nat>)
    requires Valid(L) && cid < |L.scopes|
    ensures r.Some? ==> r.value <= cid && Here(L.scopes[r.value], id).Some?
    ensures r.Some? ==> r.value in Ancestors(L, cid)
    decreases cid
  {
    var c := L.scopes[cid];
    if Here(c, id).Some? then Some(cid)
    else if c.parent.None? then None
    else
      assert Ancestors(L, cid) == [cid] + Ancestors(L, c.parent.value);
      Find(L, c.parent.value, id)
  }

  /** `Find` answers with the first container of the parent chain that binds the identity, and
      with nothing exactly when no container of the chain binds it. */
  lemma {:induction false} FindIsNearest(L: Locator, cid: nat, id: Ident)
    requires Valid(L) && cid < |L.scopes|
    ensures Find(L, cid, id).None? <==> forall k :: 0 <= k < |Ancestors(L, cid)| ==>
      Here(L.scopes[Ancestors(L, cid)[k]], id).None?
    ensures Find(L, cid, id).Some? ==>
      exists k ::
        && 0 <= k < |Ancestors(L, cid)| && Ancestors(L, cid)[k] == Find(L, cid, id).value
        && forall j :: 0 <= j < k ==> Here(L.scopes[Ancestors(L, cid)[j]], id).None?
    decreases cid
  {
    var c := L.scopes[cid];
    var a := Ancestors(L, cid);
    if Here(c, id).Some? {
      assert Find(L, cid, id) == Some(cid);
      assert Here(L.scopes[Ancestors(L, cid)[0]], id).Some?;
    } else if c.parent.Some? {
      var q := c.parent.value;
      FindIsNearest(L, q, id);
      assert a == [cid] + Ancestors(L, q);
      if Find(L, q, id).Some? {
        var k :| 0 <= k < |Ancestors(L, q)| && Ancestors(L, q)[k] == Find(L, q, id).value
          && forall j :: 0 <= j < k ==> Here(L.scopes[Ancestors(L, q)[j]], id).None?;
        assert a[k + 1] == Find(L, q, id).value;
      }
    } else {
      assert a == [cid];
    }
  }

  /** `_canResolve`: walks up only while a container has no table at all for the type, and then
      answers from that one table (ServiceLocator.hpp:627-639, 533-535). */
  function CanResolve(L: Locator, cid: nat, id: Ident): bool
    requires Valid(L) && cid < |L.scopes|
    decreases cid
  {
    var c := L.scopes[cid];
    if id.t in c.tables then id.name in Names(c.tables[id.t])
    else if c.parent.None? then false
    else CanResolve(L, c.parent.value, id)
  }

  /** The bindings `_visitAll` hands to its visitor: this container's table for `t` in name
      order, then the same for each ancestor, shadowed identities included
      (ServiceLocator.hpp:547-552, 615-625). */
  function {:induction false} VisitAll(L: Locator, cid: nat, t: string): (r: seq<Visit>)
    requires Valid(L) && cid < |L.scopes|
    ensures forall k :: 0 <= k < |r| ==>
      && r[k].ref.scope in Ancestors(L, cid)
      && r[k].ref.id.t == t
      && t in L.scopes[r[k].ref.scope].tables
      && Here(L.scopes[r[k].ref.scope], r[k].ref.id) == Some(r[k].binding)
    ensures forall i, j :: 0 <= i < j < |r| ==>
      || r[i].ref.scope > r[j].ref.scope
      || (r[i].ref.scope == r[j].ref.scope && Lexical.Less(r[i].ref.id.name, r[j].ref.id.name))
    ensures forall s, e :: s in Ancestors(L, cid) && e in TableOf(L.scopes[s], t) ==>
      Visit(Ref(s, Ident(t, e.name)), e.value) in r
    decreases cid
  {
    var c := L.scopes[cid];
    var own := Own(L, cid, t);
    var rest := if c.parent.None? then [] else VisitAll(L, c.parent.value, t);
    assert Ancestors(L, cid) == [cid] + (if c.parent.None? then [] else Ancestors(L, c.parent.value));
    own + rest
  }

  /** The visits of one container's table for `t`, in table order. */
  function Own(L: Locator, cid: nat, t: string): (r: seq<Visit>)
    requires Valid(L) && cid < |L.scopes|
    ensures |r| == |TableOf(L.scopes[cid], t)|
    ensures forall k :: 0 <= k < |r| ==>
      r[k] == Visit(Ref(cid, Ident(t, TableOf(L.scopes[cid], t)[k].name)), TableOf(L.scopes[cid], t)[k].value)
    ensures forall k :: 0 <= k < |r| ==>
      t in L.scopes[cid].tables && Here(L.scopes[cid], r[k].ref.id) == Some(r[k].binding)
  {
    var table := TableOf(L.scopes[cid], t);
    var r := seq(|table|, k requires 0 <= k < |table| => Visit(Ref(cid, Ident(t, table[k].name)), table[k].value));
    assert forall k :: 0 <= k < |r| ==> Here(L.scopes[cid], r[k].ref.id) == Some(r[k].binding) by {
      forall k | 0 <= k < |r|
        ensures Here(L.scopes[cid], r[k].ref.id) == Some(r[k].binding)
      {
        assert table[k] in table;
        UniqueNames(table, table[k].name, table[k].value);
      }
    }
    r
  }

  /** Every identity that can name a frame whose binding runs: each bound identity, and the
      unnamed identity of each bound type (the frames of `resolveAll` and eager binding). */
  ghost function Universe(L: Locator): set<Ident>
  {
    (set i, t, n | 0 <= i < |L.scopes| && t in L.scopes[i].tables && n in Names(L.scopes[i].tables[t])
       :: Ident(t, n))
    + (set i, t | 0 <= i < |L.scopes| && t in L.scopes[i].tables :: Ident(t, ""))
  }

  lemma BoundInUniverse(L: Locator, cid: nat, id: Ident)
    requires cid < |L.scopes| && Here(L.scopes[cid], id).Some?
    ensures id in Universe(L)
  {
    assert id.name in Names(L.scopes[cid].tables[id.t]);
  }

  lemma TypeInUniverse(L: Locator, cid: nat, t: string)
    requires cid < |L.scopes| && t in L.scopes[cid].tables
    ensures Ident(t, "") in Universe(L)
  {
  }
}

=== FILE: service_locator.dfy ===
/** The operations a program performs on a container and on the root context that
    `getContext` hands out (ServiceLocator.hpp:661-711, 202-317). Every container owns one
    persistent root context, created with it; its after-resolve queue lives in `Heap.roots`. */
module ServiceLocator {
  import opened Base
  import opened Bindings
  import opened Frames
  import opened Scopes
  import opened Resolution

  /** The queue of the container's own root context. */
  function RootQueue(h: Heap, cid: nat): seq<Callback>
  {
    if cid in h.roots then h.roots[cid] else []
  }

  function WithRootQueue(h: Heap, cid: nat, q: seq<Callback>): (r: Heap)
    ensures RootQueue(r, cid) == q && cid in r.roots
    ensures r.caches == h.caches && r.next == h.next
    ensures forall c :: c != cid ==> RootQueue(r, c) == RootQueue(h, c)
  {
    h.(roots := h.roots[cid := q])
  }

  /** The state a top-level request on container `cid` starts from. */
  function TopState(h: Heap, cid: nat): State
  {
    State(h, RootQueue(h, cid))
  }

  /** What a top-level call leaves behind, whether it succeeded or threw. */
  ghost predicate Follows(L: Locator, h: Heap, h': Heap, cid: nat)
  {
    && h.next <= h'.next
    && (forall r :: r in h.caches ==> r in h'.caches && h'.caches[r] == h.caches[r])
    && (Coherent(L, h) ==> Coherent(L, h'))
    && (Numbered(L, h) ==> Numbered(L, h'))
    && (forall c :: c != cid ==> RootQueue(h', c) == RootQueue(h, c))
  }

  /** Storing the queue a request ends with back into the root context keeps what the request
      itself kept. */
  lemma FollowsTop(L: Locator, h: Heap, h1: Heap, cid: nat, q: seq<Callback>)
    requires Extends(h, h1)
    requires Coherent(L, h) ==> Coherent(L, h1)
    requires Numbered(L, h) ==> Numbered(L, h1)
    ensures Follows(L, h, WithRootQueue(h1, cid, q), cid)
  {
    var h2 := WithRootQueue(h1, cid, q);
    assert Coherent(L, h1) ==> Coherent(L, h2);
    assert Numbered(L, h1) ==> Numbered(L, h2);
  }

  /** `resolve<T>(name)` (`Must`) or `tryResolve` (`Try`) on the container's own root context,
      which does not force pending eager bindings. On success the root's queue has been drained;
      a failure leaves it in place, grown by whatever the failed request queued. */
  function Resolve(L: Locator, h: Heap, fuel: nat, cid: nat, id: Ident, mode: Mode): (out: (Result<Ptr>, Heap))
    requires Valid(L) && cid < |L.scopes|
    ensures Follows(L, h, out.1, cid)
    ensures mode == Must && out.0.Ok? ==> out.0.value != Null
    ensures out.0.Ok? ==> RootQueue(out.1, cid) == []
    ensures out.0.Err? ==> RootQueue(h, cid) <= RootQueue(out.1, cid)
    ensures id == Root.id ==> out.0 == Err(RecursiveResolve(Segment(Frame(id, None))))
  {
    var (r, s) := ResolveFrom(L, fuel, cid, [Root], id, mode, TopState(h, cid));
    FollowsTop(L, h, s.heap, cid, s.queue);
    assert id == Root.id ==> id in Ids([Root]);
    (r, WithRootQueue(s.heap, cid, s.queue))
  }

  /** `resolveAll<T>(&all)` on the container's own root context: one result per binding
      `_visitAll` meets. */
  function ResolveAll(L: Locator, h: Heap, fuel: nat, cid: nat, t: string): (out: (Result<seq<Ptr>>, Heap))
    requires Valid(L) && cid < |L.scopes|
    ensures Follows(L, h, out.1, cid)
    ensures out.0.Ok? ==> |out.0.value| == |VisitAll(L, cid, t)|
    ensures out.0.Ok? ==> RootQueue(out.1, cid) == []
    ensures out.0.Err? ==> RootQueue(h, cid) <= RootQueue(out.1, cid)
  {
    var (r, s) := ResolveAllFrom(L, fuel, cid, [Root], t, TopState(h, cid));
    FollowsTop(L, h, s.heap, cid, s.queue);
    (r, WithRootQueue(s.heap, cid, s.queue))
  }

  /** A provider or try-provider obtained from any context of container `cid`, called from
      outside any resolve. It never touches the container's root queue. */
  function Provide(L: Locator, h: Heap, fuel: nat, cid: nat, id: Ident, mode: Mode): (out: (Result<Ptr>, Heap))
    requires Valid(L) && cid < |L.scopes|
    ensures Follows(L, h, out.1, cid)
    ensures RootQueue(out.1, cid) == RootQueue(h, cid)
    ensures mode == Must && out.0.Ok? ==> out.0.value != Null
  {
    var (r, s) := ProviderCall(L, fuel, cid, id, mode, TopState(h, cid));
    FollowsTop(L, h, s.heap, cid, s.queue);
    (r, WithRootQueue(s.heap, cid, s.queue))
  }

  /** `afterResolve(fn)` on the container's root context, outside any resolve, once the context
      has been obtained (`GetContext` models the eager runs that obtaining it may trigger): queued
      on the root context, run by its next successful top-level resolve. */
  function RegisterAfterResolve(L: Locator, h: Heap, cid: nat, cb: Callback): (r: Heap)
    requires cid < |L.scopes|
    ensures RootQueue(r, cid) == RootQueue(h, cid) + [cb]
    ensures r.caches == h.caches && r.next == h.next
    ensures forall c :: c != cid ==> RootQueue(r, c) == RootQueue(h, c)
  {
    WithRootQueue(h, cid, RootQueue(h, cid) + [cb])
  }

  /** `getContext`: when eager bindings are pending, each one's accessor is forced once, in list
      order, through a frame for its type with an empty name under the root context, and the
      list is then cleared; the root queue is not drained. An exception leaves the list as it
      was (ServiceLocator.hpp:703-711, 511-514). */
  function GetContext(L: Locator, h: Heap, fuel: nat, cid: nat): (out: (Outcome, Locator, Heap))
    requires Valid(L) && cid < |L.scopes|
    ensures Follows(L, h, out.2, cid)
    ensures Valid(out.1) && |out.1.scopes| == |L.scopes|
    ensures L.scopes[cid].pending == [] ==> out == (Pass, L, h)
    ensures RootQueue(h, cid) <= RootQueue(out.2, cid)
    ensures out.0.Fail? ==> out.1 == L
    ensures out.0.Pass? ==> out.1 == Locator(L.scopes[cid := L.scopes[cid].(pending := [])])
    ensures out.0.Pass? ==> forall k :: 0 <= k < |L.scopes[cid].pending| ==>
      PendingDone(L, out.2, cid, L.scopes[cid].pending[k])
  {
    var pending := L.scopes[cid].pending;
    if pending == [] then (Pass, L, h)
    else
      var (o, s) := Eager(L, fuel, cid, pending, 0, TopState(h, cid));
      FollowsTop(L, h, s.heap, cid, s.queue);
      var h' := WithRootQueue(s.heap, cid, s.queue);
      if o.Fail? then (o, L, h')
      else
        var L' := Locator(L.scopes[cid := L.scopes[cid].(pending := [])]);
        assert Valid(L') by {
          assert forall i :: 0 <= i < |L'.scopes| ==> WellFormed(L'.scopes[i], i) by {
            forall i | 0 <= i < |L'.scopes|
              ensures WellFormed(L'.scopes[i], i)
            {
              assert WellFormed(L.scopes[i], i);
            }
          }
        }
        (Pass, L', h')
  }

  /** An eager singleton of container `cid` has its instance cached. */
  predicate PendingDone(L: Locator, h: Heap, cid: nat, id: Ident)
    requires cid < |L.scopes|
  {
    match Here(L.scopes[cid], id)
    case Some(Singleton(_)) => Ref(cid, id) in h.caches
    case _ => true
  }

  /** The loop of `getContext` over the pending list, from position `i`. */
  function Eager(L: Locator, fuel: nat, cid: nat, pending: seq<Ident>, i: nat, s: State): (out: (Outcome, State))
    requires Valid(L) && cid < |L.scopes| && i <= |pending|
    ensures Extends(s.heap, out.1.heap)
    ensures Coherent(L, s.heap) ==> Coherent(L, out.1.heap)
    ensures s.queue <= out.1.queue
    ensures Numbered(L, s.heap) ==> Numbered(L, out.1.heap)
    ensures out.0.Pass? ==> forall k :: i <= k < |pending| ==> PendingDone(L, out.1.heap, cid, pending[k])
    decreases |pending| - i
  {
    if i == |pending| then (Pass, s)
    else
      var id := pending[i];
      match Here(L.scopes[cid], id)
      case None => Eager(L, fuel, cid, pending, i + 1, s)
      case Some(b) =>
        var (r, _, s1) := Accessor(L, fuel, cid, [Root], Frame(Ident(id.t, ""), None), Ref(cid, id), b, s);
        if r.Err? then (Fail(r.error), s1)
        else
          var (o, s2) := Eager(L, fuel, cid, pending, i + 1, s1);
          (o, s2)
  }
}

=== FILE: sorted_table.dfy ===
/** The per-type binding table, `std::map<std::string, sptr<loose_binding>>`, as a sequence of
    entries kept in strictly increasing name order (ServiceLocator.hpp:517). Iterating the
    sequence is iterating the map. */
module SortedTable {
  import opened Base
  import Lexical

  datatype Entry<V> = Entry(name: string, value: V)

  predicate Sorted<V(==)>(t: seq<Entry<V>>)
  {
    forall i, j :: 0 <= i < j < |t| ==> Lexical.Less(t[i].name, t[j].name)
  }

  function Names<V(==)>(t: seq<Entry<V>>): set<string>
  {
    set e | e in t :: e.name
  }

  /** `_bindings.find(name)`: the value stored under `name`, if any. */
  function Get<V(==)>(t: seq<Entry<V>>, name: string): (r: Option<V>)
    ensures r.Some? <==> name in Names(t)
    ensures r.Some? ==> Entry(name, r.value) in t
  {
    if t == [] then None
    else if t[0].name == name then Some(t[0].value)
    else
      var r := Get(t[1..], name);
      assert Names(t) == {t[0].name} + Names(t[1..]);
      r
  }

  /** `_bindings.insert(...)` of a name the table does not hold yet: the entry lands at its
      place in name order, and nothing else moves or changes. */
  function {:induction false} Insert<V(==)>(t: seq<Entry<V>>, name: string, v: V): (r: seq<Entry<V>>)
    requires Sorted(t) && name !in Names(t)
    ensures Sorted(r)
    ensures |r| == |t| + 1
    ensures Names(r) == Names(t) + {name}
    ensures Entry(name, v) in r
    ensures forall e :: e in t ==> e in r
    ensures forall e :: e in r ==> e in t || e == Entry(name, v)
  {
    if t == [] || Lexical.Less(name, t[0].name) then
      var r := [Entry(name, v)] + t;
      assert forall j :: 1 <= j < |r| ==> Lexical.Less(name, r[j].name) by {
        forall j | 1 <= j < |r|
          ensures Lexical.Less(name, r[j].name)
        {
          if j > 1 {
            Lexical.Transitive(name, t[0].name, t[j - 1].name);
          }
        }
      }
      r
    else
      assert name != t[0].name;
      Lexical.Total(name, t[0].name);
      assert Names(t) == {t[0].name} + Names(t[1..]);
      var rest := Insert(t[1..], name, v);
      var r := [t[0]] + rest;
      assert forall e :: e in rest ==> Lexical.Less(t[0].name, e.name) by {
        forall e | e in rest
          ensures Lexical.Less(t[0].name, e.name)
        {
          if e != Entry(name, v) {
            var k :| 0 <= k < |t[1..]| && t[1..][k] == e;
            assert t[k + 1] == e;
          }
        }
      }
      assert Sorted(r) by {
        forall i, j | 0 <= i < j < |r|
          ensures Lexical.Less(r[i].name, r[j].name)
        {
          if i == 0 {
            assert r[j] in rest;
          }
        }
      }
      r
  }

  /** Looking up any name in a sorted table after `Insert` sees the new entry under the new
      name and the old entry under every other name. */
  lemma {:induction false} GetAfterInsert<V>(t: seq<Entry<V>>, name: string, v: V, other: string)
    requires Sorted(t) && name !in Names(t)
    ensures Get(Insert(t, name, v), name) == Some(v)
    ensures other != name ==> Get(Insert(t, name, v), other) == Get(t, other)
  {
    var r := Insert(t, name, v);
    UniqueNames(r, name, v);
    if other != name {
      var g := Get(r, other);
      if g.Some? {
        assert Entry(other, g.value) in t;
        UniqueNames(t, other, g.value);
      } else {
        assert other !in Names(t);
      }
    }
  }

  /** In a sorted table a name occurs in at most one entry, so `Get` returns its value. */
  lemma UniqueNames<V>(t: seq<Entry<V>>, name: string, v: V)
    requires Sorted(t) && Entry(name, v) in t
    ensures Get(t, name) == Some(v)
  {
    var g := Get(t, name);
    var i :| 0 <= i < |t| && t[i] == Entry(name, v);
    var j :| 0 <= j < |t| && t[j] == Entry(name, g.value);
    if i < j {
      Lexical.Irreflexive(name);
    } else if j < i {
      Lexical.Irreflexive(name);
    }
  }
}
